=== FILE: README.md ===
# awanti-tech admin console: view-state model

A Dafny model of the page handlers of the awanti-tech admin console, a React
single-page application. Its staff and admins use it to triage service
requests and manage tickets, staff accounts, annual maintenance contracts
(AMCs), service contracts and the product inventory.

Each page keeps its view state in React hooks: a cached list of server records,
the open modal, the form being filled, the record being edited. The model treats
every event handler as a pure function from the old view state to the new one:

- A server call the handler awaits becomes an `Outcome` parameter,
  `Success(value)` or `Failure`.
- A `confirm()` prompt becomes a `bool` parameter.
- A `Date.now()` reading becomes a `now: int` parameter.
- A handler that may call the server returns a `Step`: the next state plus the
  calls it issued, in order. A re-fetch after a mutation appears as a fetch
  call in that sequence.
- A `TypeError` thrown inside a handler's own code means the handler changes
  nothing. Examples are reading the id of a missing active request, or writing
  to a row index past the end of the table.

Shared modules:

- `Wrappers`: `Option`, `Outcome`, `Step`.
- `Text`: ASCII `toLowerCase`, `includes`, `trim`, `slice(-n)`, `String(n)` and
  the global `parseInt`.
- `Js`: the dynamic JavaScript values the list loaders inspect (truthiness,
  `||`, property reads, `Array.isArray`).
- `Keyed`: the `filter` / `map` idioms over keyed record lists, with
  `IsSubsequence` for order preservation.

Each page file has a module of its own:

| module | page |
|---|---|
| `Requests` | src/pages/Requests.jsx |
| `StaffAccounts` | src/pages/Staff/StaffManagement.jsx |
| `DemoStaff` | src/pages/StaffManagement.jsx |
| `Tickets` | src/pages/Tickets.jsx |
| `StaffTickets` | src/pages/Staff/StaffTickets.jsx |
| `AmcManagement` | src/pages/AMCManagement.jsx |
| `AmcRegistry` | src/pages/AMC/AMCManagement.jsx |
| `DetailedAmc` | src/pages/AMC/DetailedAMCModal.jsx |
| `Contracts` | src/pages/ContractPage.jsx |
| `Products` | src/pages/ProductManagement.jsx |

## Model

| member | source | states |
|---|---|---|
| Requests.Initial | src/pages/Requests.jsx:5-26 | the page starts with two requests, both `New`, no active request and both modals closed |
| Requests.ActionsFor | src/pages/Requests.jsx:75-101 | a row offers the create actions if and only if its status is `New`; any other status shows the processed indicator |
| Requests.MarkProcessed | src/pages/Requests.jsx:43-47 | every request with the id becomes `Processed`; other requests are untouched; length and order are kept |
| Requests.MarkProcessedIdempotent | src/pages/Requests.jsx:45 | marking the same id twice equals marking it once |
| Requests.HandleCreateUser | src/pages/Requests.jsx:29-33 | with an active request, marks it processed and closes only the user modal; with none (the id read throws) nothing changes |
| Requests.HandleCreateTicket | src/pages/Requests.jsx:36-40 | the same for the ticket modal, leaving the user modal alone |
| Requests.ConfirmShowsIndicator | src/pages/Requests.jsx:29-40 | after either confirmation, every row of the confirmed request shows the processed indicator |
| Requests.ApplyOnlyProcesses | src/pages/Requests.jsx:29-47 | any single page event leaves each request as it was or marks it processed |
| Requests.RunOnlyProcesses | src/pages/Requests.jsx:5-47 | over any event sequence the list keeps its length, each request stays or becomes `Processed`, and a request that ends `New` started `New`, since nothing writes `New` |
| Keyed.Filter | src/pages/AMC/AMCManagement.jsx:26-29 | `filter` keeps exactly the elements satisfying the predicate and never lengthens the list |
| Keyed.FilterIsSubsequence | src/pages/AMC/AMCManagement.jsx:26-29 | the kept elements stay in their original order (a subsequence of the input) |
| Keyed.FilterAllKept | src/pages/ContractPage.jsx:118-122 | a filter whose predicate holds for every element returns its input |
| Keyed.FilterKeepsCount | src/pages/Tickets.jsx:78 | filtering keeps every kept value with its multiplicity |
| Keyed.FilterAppend | src/pages/ContractPage.jsx:73 | filtering a concatenation is the concatenation of the filtered parts |
| Keyed.RemoveKey | src/pages/Staff/StaffManagement.jsx:94 | `filter(u => u.id !== id)` drops exactly the records with that id and keeps the others with their multiplicity and order |
| Keyed.RemoveKeyIdempotent | src/pages/Tickets.jsx:78 | proof helper: removing a key twice removes no more than removing it once |
| Keyed.RemoveKeyOfPrepended | src/pages/AMCManagement.jsx:43 | removing the key of a record just put in front of a list that lacks that key gives back the list |
| Keyed.RemoveKeyAppend | src/pages/ContractPage.jsx:64-73 | removing a key from a concatenation removes it from each part |
| Keyed.MapWhere | src/pages/Requests.jsx:45 | `map(x => x.id === k ? f(x) : x)` rewrites exactly the positions with key `k` and keeps length and every other position |
| Keyed.MapWhereIdempotent | src/pages/Requests.jsx:45 | rewriting twice with a key-preserving idempotent `f` equals rewriting once |
| Keyed.MapWhereInvolution | src/pages/StaffManagement.jsx:95-101 | rewriting twice with a key-preserving self-inverse `f` restores the list |
| StaffAccounts.EmptyForm | src/pages/Staff/StaffManagement.jsx:30-35 | the empty form has four empty strings and role `staff` |
| StaffAccounts.Load | src/pages/Staff/StaffManagement.jsx:42-49 | a fetched list replaces the cache; a failed fetch keeps it |
| StaffAccounts.ResetForm | src/pages/Staff/StaffManagement.jsx:78-88 | the form is empty with role `staff`, edit mode is off and nothing is selected; list and modal are kept |
| StaffAccounts.OpenInvite | src/pages/Staff/StaffManagement.jsx:123-126 | "Invite Staff" opens the modal on a reset form |
| StaffAccounts.HandleCreate | src/pages/Staff/StaffManagement.jsx:51-76 | a call is issued if and only if the password is at least 6 UTF-16 code units long (JavaScript `.length`); no other field is checked. On success `staff` (or the whole reply) is prepended ahead of the unchanged list and the form is reset; a failure changes nothing |
| StaffAccounts.PasswordMeasuredInCodeUnits | src/pages/Staff/StaffManagement.jsx:53-56 | three emoji (six code units) pass the length guard, and five characters of the basic plane do not |
| StaffAccounts.HandleDelete | src/pages/Staff/StaffManagement.jsx:90-99 | without confirmation nothing happens; a successful delete keeps exactly the records with another id, in order; a failure keeps the list |
| StaffAccounts.DeleteKeepsOthers | src/pages/Staff/StaffManagement.jsx:94 | a delete keeps every record of another id with its multiplicity |
| StaffAccounts.CreateThenDeleteRestores | src/pages/Staff/StaffManagement.jsx:64-94 | creating a member under a fresh id and deleting it gives back the original list |
| DemoStaff.EmptyForm | src/pages/StaffManagement.jsx:46-50 | the empty form is two empty strings with role `Editor` |
| DemoStaff.Initial | src/pages/StaffManagement.jsx:22-37 | two seeded members, both `Active` |
| DemoStaff.CreateUserApi | src/pages/StaffManagement.jsx:5-18 | the stand-in API always succeeds with the payload, id `now` and status `Active` |
| DemoStaff.HandleCreate | src/pages/StaffManagement.jsx:53-67 | nothing happens unless both name and email are non-empty; otherwise the new record is appended after the unchanged earlier entries and the form is reset |
| DemoStaff.EditUser | src/pages/StaffManagement.jsx:69-78 | selects the member and copies its name, email and role into the form |
| DemoStaff.HandleUpdate | src/pages/StaffManagement.jsx:80-91 | members with the selected id take the form's name, email and role and keep id and status; others are unchanged; the form resets and edit mode ends |
| DemoStaff.Flip | src/pages/StaffManagement.jsx:99 | the toggle writes only `Active` or `Disabled`, and `Disabled` exactly when the status was `Active` |
| DemoStaff.FlipTwice | src/pages/StaffManagement.jsx:99 | flipping twice restores a status if and only if it was `Active` or `Disabled`; any other status ends `Disabled` |
| DemoStaff.ConfirmToggle | src/pages/StaffManagement.jsx:93-105 | flips the status of the dialog member's id only and closes the dialog |
| DemoStaff.OpenConfirm | src/pages/StaffManagement.jsx:178-182 | the menu item, as intended, opens the dialog for that member and changes nothing else |
| DemoStaff.MenuToggleAsWritten | src/pages/StaffManagement.jsx:178-182 | the menu item as written: with no dialog open it throws exactly when the list is non-empty; with one open it flips the earlier dialog member and re-points the dialog |
| DemoStaff.ToggleTwiceRestores | src/pages/StaffManagement.jsx:93-105 | toggling the same member twice through the dialog restores the list when its status was `Active` or `Disabled` |
| DemoStaff.EditThenUpdateUnchanged | src/pages/StaffManagement.jsx:69-91 | opening a member for edit and saving the untouched form gives back the list, when the member is the only record with its id |
| DemoStaff.ApplyKeepsKnownStatuses | src/pages/StaffManagement.jsx:46-105 | no event (typing, add, create, dialog open, confirm, cancel, and also edit and update, which no control of the screen reaches) brings a status other than `Active` or `Disabled` |
| DemoStaff.RunKeepsKnownStatuses | src/pages/StaffManagement.jsx:22-105 | over any event sequence every member stays `Active` or `Disabled` |
| DemoStaff.ReachableToggleTwiceRestores | src/pages/StaffManagement.jsx:22-105 | on every reachable state, toggling a member twice through the dialog restores the list |
| DemoStaff.RunKeepsMembers | src/pages/StaffManagement.jsx:22-105 | no event sequence removes a member (proof helper for `MenuToggleAsWrittenCrashes`, built on `ApplyKeepsMembers`) |
| DemoStaff.ApplyKeepsMembers | src/pages/StaffManagement.jsx:53-105 | proof helper: no single event shortens the list |
| DemoStaff.MenuToggleAsWrittenCrashes | src/pages/StaffManagement.jsx:178-182 | on every reachable state with the dialog closed, the menu item as written throws, where the intended one opens the dialog |
| Tickets.EmptyForm | src/pages/Tickets.jsx:28-34 | the empty ticket form has five empty fields |
| Tickets.Load | src/pages/Tickets.jsx:36-46 | a fetched list replaces the cache; a failed fetch keeps it |
| Tickets.HandleCreate | src/pages/Tickets.jsx:55-72 | every form is sent, with no field check; success closes the modal, clears all five fields and re-fetches without touching the cache; failure changes nothing |
| Tickets.HandleDelete | src/pages/Tickets.jsx:74-83 | without confirmation nothing happens; a successful delete keeps exactly the tickets with another id, each as often as it occurs and in order |
| Tickets.OpenAssign | src/pages/Tickets.jsx:168-171 | the row's Assign button opens the modal for that ticket |
| Tickets.HandleAssign | src/pages/Tickets.jsx:85-101 | an empty staff selection (or no ticket) issues nothing and changes nothing; success closes the modal, clears ticket and selection and re-fetches; failure keeps the modal |
| Tickets.HandleStatusChange | src/pages/Tickets.jsx:103-114 | the payload is exactly the status with `staff_id` `SYSTEM`; success re-fetches; no local state changes |
| Tickets.OpenEdit | src/pages/Tickets.jsx:116-126 | the form receives exactly the ticket's five fields and the edit modal opens |
| Tickets.SaveEdit | src/pages/Tickets.jsx:212 | saving the edit modal only closes it; the shared form keeps whatever was typed |
| Tickets.EditRoundTripKeepsTickets | src/pages/Tickets.jsx:116-126 | opening and saving the edit view never changes the ticket list |
| Tickets.SetField | src/pages/Tickets.jsx:261-275 | typing into one input of the shared modal writes exactly that field of the form and nothing else |
| Tickets.OpenCreate | src/pages/Tickets.jsx:137 | "New Ticket" opens the create modal on the current form, without resetting it |
| Tickets.ChooseStaff | src/pages/Tickets.jsx:230 | the assign select stores the chosen staff id and nothing else |
| Tickets.CloseCreate | src/pages/Tickets.jsx:200 | closing the create modal hides it and keeps the draft and the list |
| Tickets.CancelAssign | src/pages/Tickets.jsx:242 | Cancel hides the assign modal but keeps the ticket and the staff selection |
| Tickets.CloseCreateKeepsDraft | src/pages/Tickets.jsx:196-204 | closing and reopening the create modal shows the same draft, and submitting sends it |
| Tickets.CancelledChoiceCarriesOver | src/pages/Tickets.jsx:218-250 | a staff member chosen before Cancel is sent for the next ticket opened for assignment when Assign is pressed at once |
| Tickets.EditedFormReachesCreate | src/pages/Tickets.jsx:197-215 | what is typed in the edit modal survives its save, and the next create sends it |
| Tickets.CreateRetrySendsSame | src/pages/Tickets.jsx:55-72 | a failed create keeps the form, so a retry sends the same ticket |
| Tickets.DeleteTwiceIdempotent | src/pages/Tickets.jsx:74-83 | deleting the same ticket twice leaves what deleting it once left |
| Tickets.AssignTwiceSendsOnce | src/pages/Tickets.jsx:85-101 | after a successful assignment a second press sends nothing |
| Tickets.ApplyOnlyReloadOrDeleteChanges | src/pages/Tickets.jsx:36-126 | among all the page's controls (and the status change no control reaches) only a reload or a delete changes the cached list, and a delete only removes tickets |
| Tickets.RunWithoutReloadOnlyShrinks | src/pages/Tickets.jsx:36-126 | between reloads the list only loses tickets, and without a delete it does not change: creates, assignments and status changes show only after the next fetch |
| StaffTickets.Loaded | src/pages/Staff/StaffTickets.jsx:14-27 | the list is `data` if that is an array, the response if that is an array, otherwise empty; a failure or a null response gives the empty list |
| StaffTickets.LoadedRejectsNonArrayData | src/pages/Staff/StaffTickets.jsx:18-19 | a truthy non-array `data` never reaches the list |
| StaffTickets.Load | src/pages/Staff/StaffTickets.jsx:14-27 | the load stores exactly the normalised list |
| StaffTickets.SelectValue | src/pages/Staff/StaffTickets.jsx:74 | the selector shows the ticket's status, or `Pending` when it is absent or empty |
| StaffTickets.SelectShowsOption | src/pages/Staff/StaffTickets.jsx:8-80 | a status from the four-value vocabulary is shown as is; a missing one shows the vocabulary's first value |
| StaffTickets.BadgeFor | src/pages/Staff/StaffTickets.jsx:93-98 | green if and only if `Completed` or `Closed`, yellow if and only if `In Progress`, grey otherwise |
| StaffTickets.BadgeOfOptions | src/pages/Staff/StaffTickets.jsx:8-98 | over the vocabulary `Pending`, `In Progress`, `Completed`, `Closed` the badges are grey, yellow, green, green |
| StaffTickets.RecentActivity | src/pages/Staff/StaffTickets.jsx:106-109 | shown if and only if the history is non-empty, and then it is the last `min(2, n)` entries in stored order |
| StaffTickets.HandleStatusChange | src/pages/Staff/StaffTickets.jsx:34-44 | the payload carries only the new status; success reloads the staff member's list |
| StaffTickets.StatusChangeShownAfterReload | src/pages/Staff/StaffTickets.jsx:34-44 | a successful change reloads this staff member's list, the page then shows exactly the reloaded list, and a ticket reported with the new status shows it in its selector |
| AmcManagement.InitialForm | src/pages/AMCManagement.jsx:12-19 | customer and fees empty, type `New Customer`, AMC type `New`, 12 months |
| AmcManagement.Load | src/pages/AMCManagement.jsx:25-30 | both lists are stored only when both fetches succeed |
| AmcManagement.EditForm | src/pages/AMCManagement.jsx:134-163 | each input changes exactly its own field of the form |
| AmcManagement.Close | src/pages/AMCManagement.jsx:49-60 | the modal closes, editing is cleared and the form returns to its defaults |
| AmcManagement.StartEdit | src/pages/AMCManagement.jsx:97-105 | the pencil edits that record, starting from its own terms |
| AmcManagement.Submit | src/pages/AMCManagement.jsx:32-47 | without customer or fees nothing is sent. An edit sends the form under the edited id and replaces exactly the rows with the returned record's id, keeping length. A create prepends the returned record. Success closes the modal; failure changes nothing |
| AmcManagement.Delete | src/pages/AMCManagement.jsx:106-115 | only after confirmation; success keeps exactly the records with another id, each as often as it occurs and in order |
| AmcManagement.RegisterThenDeleteRestores | src/pages/AMCManagement.jsx:42-113 | registering under a fresh id and deleting that record restores the list |
| AmcManagement.EditUnchangedKeepsList | src/pages/AMCManagement.jsx:38-40 | an edit whose reply equals the stored record leaves the list unchanged |
| AmcRegistry.Filtered | src/pages/AMC/AMCManagement.jsx:26-29 | a record is listed if and only if its owner or company name contains the term, ignoring ASCII case; each match is listed as often as it occurs, in an order-preserving subsequence |
| AmcRegistry.MatchesIffOccurs | src/pages/AMC/AMCManagement.jsx:26-29 | a match means the lower-cased term occurs at some position of a lower-cased name that is present |
| AmcRegistry.EmptySearchShowsNamed | src/pages/AMC/AMCManagement.jsx:26-29 | with an empty term, a record is listed if and only if it has an owner or a company name, so a record missing both never matches |
| AmcRegistry.LoadedAsWritten | src/pages/AMC/AMCManagement.jsx:18 | `res.data \|\| []` keeps every truthy body, array or not |
| AmcRegistry.LoadedAsWrittenKeepsObject | src/pages/AMC/AMCManagement.jsx:18 | an object body is kept as the list, which is not an array |
| AmcRegistry.Load | src/pages/AMC/AMCManagement.jsx:14-24 | an array body becomes the list; anything else, including a missing `data`, gives the empty list; a failed fetch keeps the list |
| AmcRegistry.LoadAgreesOnArrays | src/pages/AMC/AMCManagement.jsx:18 | the code as written stores an array if and only if the body is an array or falsy, and then the same list as `Load` |
| AmcRegistry.HandleSaveDetailed | src/pages/AMC/AMCManagement.jsx:31-39 | success prepends the returned record and closes the modal; failure changes nothing |
| AmcRegistry.HandleSaveDetailedAsWritten | src/pages/AMC/AMCManagement.jsx:31-39 | with `createDetailedAMC` missing from the API module the call throws before any request, so saving sends nothing and changes nothing |
| AmcRegistry.SaveAsWrittenNeverAdds | src/pages/AMC/AMCManagement.jsx:31-39 | as written, saving never adds the record or closes the modal, while the intended handler adds it on success; the two agree only on a failed create |
| AmcRegistry.Delete | src/pages/AMC/AMCManagement.jsx:94 | no confirmation; the delete is sent at once and success reloads without a local edit |
| AmcRegistry.SavedVisibleIffMatches | src/pages/AMC/AMCManagement.jsx:26-35 | a saved record is visible under the current search if and only if it matches it |
| DetailedAmc.PaymentMethod.Name | src/pages/AMC/DetailedAMCModal.jsx:199-201 | each radio writes one of `Cheque`, `Cash` |
| DetailedAmc.InitialForm | src/pages/AMC/DetailedAMCModal.jsx:5-22 | one empty config row, all counts 0, company `AWANTI TECHNOLOGIES`, rate 1600, payment `Cheque`, empty contact fields |
| DetailedAmc.CountOf | src/pages/AMC/DetailedAMCModal.jsx:117 | a count is the `parseInt` value of the text, or 0 when it parses to `NaN` |
| DetailedAmc.CountOfDecimal | src/pages/AMC/DetailedAMCModal.jsx:117 | typing the decimal text of any integer stores that integer |
| DetailedAmc.CountOfCleared | src/pages/AMC/DetailedAMCModal.jsx:117 | a cleared count input stores 0, since `parseInt("")` is `NaN` |
| DetailedAmc.RateOf | src/pages/AMC/DetailedAMCModal.jsx:130-135 | the unit rate stores the `parseFloat` result, or 0 when it is `NaN` |
| DetailedAmc.WithCount | src/pages/AMC/DetailedAMCModal.jsx:105-117 | writing one asset count leaves the other three and every other field alone |
| DetailedAmc.AddRow | src/pages/AMC/DetailedAMCModal.jsx:24-26 | appends exactly one empty row and keeps the others |
| DetailedAmc.UpdateRow | src/pages/AMC/DetailedAMCModal.jsx:28-32 | changes only the named column of row `i` and keeps every other row; an index outside the table changes nothing |
| DetailedAmc.DropIndex | src/pages/AMC/DetailedAMCModal.jsx:172-174 | deleting row `i` removes exactly that position and keeps the rest in order; an index outside the table changes nothing |
| DetailedAmc.DropIndexShifts | src/pages/AMC/DetailedAMCModal.jsx:172-174 | rows before `i` stay in place and rows after it move up by one |
| DetailedAmc.AddThenDropRestores | src/pages/AMC/DetailedAMCModal.jsx:24-174 | adding a row and deleting it restores the table |
| DetailedAmc.ApplyKeepsInvariant | src/pages/AMC/DetailedAMCModal.jsx:24-201 | one input event keeps the payment method valid and the fixed fields unchanged, and only the unit-rate input writes the rate |
| DetailedAmc.RunKeepsInvariant | src/pages/AMC/DetailedAMCModal.jsx:5-213 | over any input sequence the payment method stays `Cheque` or `Cash`, and company, site address, network, OS and payment cycle are never written |
| DetailedAmc.LastRate | src/pages/AMC/DetailedAMCModal.jsx:130-135 | the rate stored by the last unit-rate edit, absent exactly when no such edit occurs |
| DetailedAmc.RunRate | src/pages/AMC/DetailedAMCModal.jsx:130-135 | after any input sequence the rate is the one the last unit-rate edit stored, or the starting rate |
| DetailedAmc.RunSnoc | src/pages/AMC/DetailedAMCModal.jsx:24-201 | proof helper: running a sequence and then one more input is running the extended sequence |
| DetailedAmc.SavedFormFromInitial | src/pages/AMC/DetailedAMCModal.jsx:5-228 | every form handed to the save callback is addressed to the company, paid by cheque or cash, and priced at the last rate typed, or 1600 when the rate was never edited |
| Contracts.NewRow | src/pages/ContractPage.jsx:32 | a new equipment row is a `Computer`, empty config, quantity 1, keyed by `now` |
| Contracts.InitialForm | src/pages/ContractPage.jsx:19-34 | every field has an entry: text, dates and price empty, the four counts 0, one default row |
| Contracts.AllFieldsPresent | src/pages/ContractPage.jsx:19-34 | every one of the eleven form fields has an entry in the initial form |
| Contracts.Stored | src/pages/ContractPage.jsx:56 | a cleared number input stores 0, a filled one its `Number`, a text input its text verbatim |
| Contracts.HandleChange | src/pages/ContractPage.jsx:52-58 | only the named field changes; equipment is untouched |
| Contracts.NumberInputNeverText | src/pages/ContractPage.jsx:56 | a number input never stores raw text |
| Contracts.AddEquipmentRow | src/pages/ContractPage.jsx:60-68 | appends one default row; the other rows and all fields are unchanged |
| Contracts.RemoveEquipmentRow | src/pages/ContractPage.jsx:70-75 | drops every row with the id and keeps every other row, as often as it occurs and in order |
| Contracts.AddThenRemoveRestores | src/pages/ContractPage.jsx:60-75 | adding a row at a fresh clock reading and removing it restores the form |
| Contracts.SameInstantRowsRemovedTogether | src/pages/ContractPage.jsx:65-73 | two rows added at the same instant share an id and one removal drops both |
| Contracts.ChangeEquipment | src/pages/ContractPage.jsx:77-82 | only the named column of rows with the id changes (`Number` for quantity); other rows and fields are kept |
| Contracts.ChangeEquipmentLastWriteWins | src/pages/ContractPage.jsx:77-82 | of two edits to the same column of the same rows, the later one wins |
| Contracts.ChangeEquipmentWriteBack | src/pages/ContractPage.jsx:77-82 | typing back what a column already holds leaves the form as it was |
| Contracts.ToNumber | src/pages/ContractPage.jsx:90-94 | `Number` turns text into a number and leaves a number as it is |
| Contracts.PayloadOf | src/pages/ContractPage.jsx:88-95 | price and the four counts pass through `Number`; every other field and the equipment are sent as typed |
| Contracts.PayloadIdempotent | src/pages/ContractPage.jsx:88-95 | converting a converted form changes nothing |
| Contracts.Submit | src/pages/ContractPage.jsx:84-105 | sends the converted form; success closes the modal, resets the form and reloads; failure changes nothing |
| Contracts.Delete | src/pages/ContractPage.jsx:107-116 | the delete is issued only when confirmed, success reloads, and the list is never edited locally |
| Contracts.LoadAsWritten | src/pages/ContractPage.jsx:40-50 | the page hands `data \|\| []` to `setContracts`, so any truthy body is stored, array or not; a rejected fetch keeps the old list |
| Contracts.LoadAsWrittenKeepsText | src/pages/ContractPage.jsx:44 | a text body is stored as the list, which is not an array |
| Contracts.Load | src/pages/ContractPage.jsx:40-50 | an array body becomes the list, anything else the empty list; a failed fetch keeps the list |
| Contracts.LoadAgreesOnArrays | src/pages/ContractPage.jsx:40-50 | the code as written stores an array if and only if the fetch fails or the body is an array or falsy, and then the same list as `Load` |
| Contracts.Search | src/pages/ContractPage.jsx:118-122 | a contract is listed if and only if its user name contains the term ignoring ASCII case, or its mobile contains it exactly; each match is listed as often as it occurs, in list order |
| Contracts.EmptySearchListsAll | src/pages/ContractPage.jsx:118-122 | an empty search lists every contract in order |
| Products.IdText | src/pages/ProductManagement.jsx:170 | a numeric id's text reads back as that number; a string id is itself |
| Products.ShortId | src/pages/ProductManagement.jsx:170 | the short id is the last `min(5, n)` characters of the id text |
| Products.ShortIdOfShort | src/pages/ProductManagement.jsx:170 | an id of at most five characters is shown whole |
| Products.CategoryLabel | src/pages/ProductManagement.jsx:172 | the category, or `General` when it is empty |
| Products.BadgeFor | src/pages/ProductManagement.jsx:175 | the stock badge is red if and only if the stock is below 5 |
| Products.PayloadOf | src/pages/ProductManagement.jsx:71-77 | name and category are trimmed, price and stock are sent as typed for `Number`, and the image url is null |
| Products.PayloadStable | src/pages/ProductManagement.jsx:72-73 | a form holding a payload's trimmed text sends the same payload |
| Products.FetchedAsWritten | src/pages/ProductManagement.jsx:45 | an array response is used as is, otherwise `res?.data \|\| []`, which keeps any truthy `data` |
| Products.FetchedAsWrittenKeepsObject | src/pages/ProductManagement.jsx:45 | an object `data` is kept as the product list, which is not an array |
| Products.Fetched | src/pages/ProductManagement.jsx:41-54 | an array response, else an array `data`, else the empty list; a failed fetch also gives the empty list |
| Products.FetchAgreesOnArrays | src/pages/ProductManagement.jsx:45 | the code as written stores an array exactly when the response or its `data` is an array or `data` is falsy, and then the same list as `Fetched` |
| Products.Fetch | src/pages/ProductManagement.jsx:41-54 | the fetch stores the normalised list and keeps the form |
| Products.ChooseFile | src/pages/ProductManagement.jsx:57-63 | a chosen file becomes the image with its preview; no file changes nothing |
| Products.HandleAdd | src/pages/ProductManagement.jsx:66-93 | a form with an empty name, price or stock is stopped by the browser's `required` check and nothing happens; otherwise it sends the trimmed payload, and success reloads, then clears the form, image and preview and closes the modal; failure changes nothing |
| Products.AddTwiceSendsOnce | src/pages/ProductManagement.jsx:205-254 | after a successful add the form is empty, so an immediate second submit sends nothing |
| Products.HandleDelete | src/pages/ProductManagement.jsx:96-107 | only after confirmation; success keeps exactly the products with another id, in order; failure keeps the list |
| Products.DeleteRemovesId | src/pages/ProductManagement.jsx:101 | after a delete no row has the deleted id and every other product keeps its multiplicity |
| Text.ToLower | src/pages/AMC/AMCManagement.jsx:27-28 | `toLowerCase` keeps length and maps each character; no upper-case ASCII letter remains |
| Text.ToLowerIdempotent | src/pages/AMC/AMCManagement.jsx:27-28 | lower-casing an already lower-cased string changes nothing |
| Text.IncludesIffOccurs | src/pages/AMC/AMCManagement.jsx:27-28 | `includes` holds if and only if the needle occurs at some position |
| Text.Trim | src/pages/ProductManagement.jsx:72-73 | `trim` never lengthens the text and leaves no white space at either end |
| Text.TrimIsInfix | src/pages/ProductManagement.jsx:72-73 | `trim` gives the infix of its input with only white space cut on either side |
| Text.TrimOfTrimmed | src/pages/ProductManagement.jsx:72-73 | a string without surrounding white space is its own trim |
| Text.SliceFromEnd | src/pages/Staff/StaffTickets.jsx:109 | `slice(-n)` is the suffix of length `min(n, len)` |
| Text.ParseInt | src/pages/AMC/DetailedAMCModal.jsx:117 | `parseInt` yields `NaN` exactly when no digit follows the white space, sign and `0x` prefix |
| Text.ParseIntOfDecimalText | src/pages/AMC/DetailedAMCModal.jsx:117 | `parseInt(String(n))` is `n` for every integer |
| Text.ParseIntNoDigits | src/pages/AMC/DetailedAMCModal.jsx:117 | text containing no decimal digit parses to `NaN`, whatever white space, sign or other characters it holds |
| Text.Utf16Units | src/pages/Staff/StaffManagement.jsx:53 | a character takes two UTF-16 code units exactly when it lies above U+FFFF, one otherwise |
| Text.Utf16Length | src/pages/Staff/StaffManagement.jsx:53 | JavaScript's `.length` lies between the number of characters and twice that, and equals it for text of the basic plane |
| Text.Utf16LengthOfAstral | src/pages/Staff/StaffManagement.jsx:53 | three emoji measure six code units |
| Js.Or | src/pages/Staff/StaffTickets.jsx:18 | `a \|\| b` is `a` when truthy and `b` otherwise |
| Js.Member | src/pages/Staff/StaffTickets.jsx:18 | a property read fails exactly on `null` and `undefined`; a missing property reads `undefined` |
| Js.OptionalMember | src/pages/ProductManagement.jsx:45 | `v?.key` is `undefined` on `null`/`undefined` and the property read otherwise |
| Js.ArrayOrEmpty | src/pages/Staff/StaffTickets.jsx:19 | `Array.isArray(v) ? v : []` |
| Js.OrEmpty | src/pages/ContractPage.jsx:44 | `v \|\| []` is always truthy, is `v` when `v` is truthy and `[]` otherwise |
| Js.OrEmptyIsArrayIff | src/pages/ProductManagement.jsx:45 | `v \|\| []` is an array if and only if `v` is an array or falsy, and then it agrees with `ArrayOrEmpty` |

## Left out

- Tickets.Load: the body is taken to be a list of tickets. The page stores `res.data` as is (line 40), with no `|| []` or `Array.isArray`; a missing or non-array body, which the table's `.map` at line 149 would then fail on, is not represented, since what the API layer returns is outside the model.
- StaffAccounts.Load: the body is taken to be a list of accounts. The page stores `data` as is (line 45); a non-array body, on which `users.map` at line 152 would fail, is not represented, for the same reason.
- AmcManagement.Load: both bodies are taken to be lists. The page stores `a.data` and `u.data` as is (lines 27-28); a non-array body, on which `.map` at lines 85 and 142 would fail, is not represented, for the same reason.
- src/api/*.js and the HTTP client. Each call's result is a parameter. The missing `createDetailedAMC` export is under Findings.
- Authentication, session and render-only pages (App, Login, Layout, Dashboard, Services, Tracking, UserManagement, the staff login, dashboard and details pages). They hold no view-state logic of the core.
- Loading and refreshing flags, toasts, `alert` and `console` output. They do not affect the modelled state.
- React scheduling. Handlers are atomic steps; batching, a re-fetch racing another event, and duplicate submissions are not modelled.
- The reload itself after a mutation. It is the issued fetch call, applied through the page's own `Load` function when its reply arrives.
- Floating-point conversions. `Number(...)` is kept as the text it converts (`Contracts.NumberOf`, `Products.Payload`). The unit-rate input receives what `parseFloat` returned (`DetailedAmc.SetRate`), as an exact `real`, and the text parse itself is not modelled. Integers are unbounded, and `parseInt` precision above 2^53 is not modelled.
- Unicode case folding. `Text.ToLower` folds ASCII letters only.
- `Date.now()`. It is a parameter and ids are not assumed unique (`Contracts.SameInstantRowsRemovedTogether`).
- The row menu's open/closed flag and its Edit item, which only raises an alert, on the demo staff screen.
- The staff roster in the ticket page's assign select. It is only listed.
- The DetailedAMC networked-office radios and the second rate input. They are uncontrolled and never reach the form.
- Record fields that are only rendered: customer names and mobiles of AMCs, asset counts and rates in the registry, ticket dates, and contract addresses and dates.
- AmcManagement.StartEdit: the pencil copies the whole stored record into the form, and the model copies only the editable terms. The extra fields are sent back unchanged by an update and never read by the page.
- AmcManagement.Submit: fees are text, so a numeric fee of 0 from the server, which the guard would refuse, is not represented.
- StaffAccounts.HandleCreate: a reply is either the `{ message, staff }` envelope or a bare record. An envelope whose `staff` is falsy, which makes the page prepend the envelope itself, is not represented.
- Js.Member: primitives are treated as having no named properties. The pages only read `data` and `staff` from server replies.
- Contracts.Search: a contract whose `username` or `mobile` is missing makes the page's filter throw while rendering. The model types both as strings.
- Products.ShortId: `slice(-5)` counts UTF-16 code units, and the model slices characters. For an id holding characters above U+FFFF the page keeps fewer characters, and it may cut a surrogate pair in half.
- Products.BadgeFor: the stock is an integer. A missing or non-numeric stock, which JavaScript compares by coercion, is not represented.

## Findings

| source | as written | input that shows it | evidently intended | confidence | as-written member | corrected member |
|---|---|---|---|---|---|---|
| src/pages/ProductManagement.jsx:45 | `Array.isArray(res) ? res : res?.data \|\| []` stores any truthy `data`, array or not, and the table then calls `.map` on it | a response whose `data` is an object, e.g. `{ data: { items: [] } }` (`Products.FetchedAsWrittenKeepsObject`) | the product list is always an array: the array response, an array `data`, or `[]` | not executed; medium | Products.FetchedAsWritten | Products.Fetched |
| src/pages/ContractPage.jsx:44 | `setContracts(data \|\| [])` stores any truthy body, and the search then calls `.filter` on it | a body that is a non-empty string or an object (`Contracts.LoadAsWrittenKeepsText`) | the contract list is always an array, `[]` otherwise | not executed; medium | Contracts.LoadAsWritten | Contracts.Load |
| src/pages/AMC/AMCManagement.jsx:33 | `createDetailedAMC` is imported at line 3 from src/api/amcApi.js, which does not export it. Where the module loads at all, the name is `undefined`, so the call throws inside the `try` and the success branch at line 34 never runs | any save from the detailed form: an alert, no request, no new row (`AmcRegistry.SaveAsWrittenNeverAdds`) | the form is posted to the server and the created record is prepended | not executed; high | AmcRegistry.HandleSaveDetailedAsWritten | AmcRegistry.HandleSaveDetailed |
| src/pages/StaffManagement.jsx:180 | the Disable/Enable menu item calls `toggleUserStatus` before `setConfirmUser(user)`, and the queued updater reads `confirmUser.id` from the current render, where no dialog is open and `confirmUser` is `null` | clicking Disable or Enable on any row: the list is never empty, so the updater throws while rendering (`DemoStaff.MenuToggleAsWrittenCrashes`) | the item only opens the confirmation dialog, whose Confirm button at line 217 flips the status | not executed; high | DemoStaff.MenuToggleAsWritten | DemoStaff.OpenConfirm |
| src/pages/AMC/AMCManagement.jsx:18 | `setAmcs(res.data \|\| [])` stores any truthy body, and the search then calls `.filter` on it | a body that is an object, e.g. an envelope around the list (`AmcRegistry.LoadedAsWrittenKeepsObject`) | the record list is always an array, `[]` otherwise | not executed; medium | AmcRegistry.LoadedAsWritten | AmcRegistry.Load |

In the three loader rows the normalisation the authors evidently meant is the one
src/pages/Staff/StaffTickets.jsx:18-19 applies: `Array.isArray` after the
fallback. The model's pages store only the corrected lists, and the
`LoadAgreesOnArrays` / `FetchAgreesOnArrays` lemmas show that the two
versions agree on every input where the code as written already yields an array.

=== FILE: amc_management.dfy ===
/** Annual maintenance contract register (src/pages/AMCManagement.jsx): a
    list of contracts and the customers they can be registered for, one modal
    that registers a new contract or edits an existing one, and deletion
    after confirmation. None of its server calls is guarded, so a rejected
    call leaves the view exactly as it was.
 */
module AmcManagement {
  import opened Wrappers
  import Keyed

  const DEFAULT_CUSTOMER_TYPE := "New Customer"
  const DEFAULT_AMC_TYPE := "New"
  const DEFAULT_DURATION_MONTHS := 12

  /** The contract terms the modal edits. */
  datatype Terms = Terms(
    customerId: string,
    customerType: string,
    amcType: string,
    durationMonths: int,
    fees: string,
    productsCovered: string)

  /** A stored contract: its id and status, which the modal never edits, and its terms. */
  datatype Amc = Amc(id: string, status: string, terms: Terms)

  datatype Customer = Customer(id: string, name: string, mobile: string)

  datatype State = State(
    amcs: seq<Amc>,
    customers: seq<Customer>,
    showModal: bool,
    editing: Option<Amc>,
    form: Terms)

  datatype Call = CreateAmc(form: Terms) | UpdateAmc(id: string, form: Terms) | DeleteAmc(id: string)

  /** The three form inputs: customer select, fees, products covered. */
  datatype FormEdit = SetCustomer(v: string) | SetFees(v: string) | SetProducts(v: string)

  function InitialForm(): (f: Terms)
    ensures f.customerId == "" && f.fees == "" && f.productsCovered == ""
    ensures f.customerType == DEFAULT_CUSTOMER_TYPE && f.amcType == DEFAULT_AMC_TYPE
    ensures f.durationMonths == DEFAULT_DURATION_MONTHS
  {
    Terms("", DEFAULT_CUSTOMER_TYPE, DEFAULT_AMC_TYPE, DEFAULT_DURATION_MONTHS, "", "")
  }

  function KeyOf(a: Amc): string {
    a.id
  }

  /** `load`: contracts, then customers, are awaited in turn; the lists are
      stored only when both calls resolve. */
  function Load(s: State, amcReply: Outcome<seq<Amc>>, userReply: Outcome<seq<Customer>>): (s': State)
    ensures amcReply.Success? && userReply.Success? ==>
      s' == s.(amcs := amcReply.value, customers := userReply.value)
    ensures amcReply.Failure? || userReply.Failure? ==> s' == s
  {
    match (amcReply, userReply)
    case (Success(a), Success(u)) => s.(amcs := a, customers := u)
    case _ => s
  }

  /** Typing into the modal changes exactly one field of the form. */
  function EditForm(s: State, e: FormEdit): (s': State)
    ensures s'.amcs == s.amcs && s'.editing == s.editing && s'.showModal == s.showModal
    ensures s'.form.customerType == s.form.customerType && s'.form.amcType == s.form.amcType
    ensures s'.form.durationMonths == s.form.durationMonths
    ensures e.SetCustomer? ==> s'.form == s.form.(customerId := e.v)
    ensures e.SetFees? ==> s'.form == s.form.(fees := e.v)
    ensures e.SetProducts? ==> s'.form == s.form.(productsCovered := e.v)
  {
    match e
    case SetCustomer(v) => s.(form := s.form.(customerId := v))
    case SetFees(v) => s.(form := s.form.(fees := v))
    case SetProducts(v) => s.(form := s.form.(productsCovered := v))
  }

  /** `close`: modal shut, nothing being edited, form back to its defaults. */
  function Close(s: State): (s': State)
    ensures !s'.showModal && s'.editing.None? && s'.form == InitialForm()
    ensures s'.amcs == s.amcs && s'.customers == s.customers
  {
    s.(showModal := false, editing := None, form := InitialForm())
  }

  /** The pencil of a row: edit that contract, starting from its own terms. */
  function StartEdit(s: State, a: Amc): (s': State)
    ensures s'.editing == Some(a) && s'.form == a.terms && s'.showModal
    ensures s'.amcs == s.amcs
  {
    s.(editing := Some(a), form := a.terms, showModal := true)
  }

  /** The submit guard: a customer and fees are both required. */
  predicate Submittable(f: Terms) {
    f.customerId != "" && f.fees != ""
  }

  /** `submit`. A form without customer or fees issues nothing. Editing sends
      the form under the edited contract's id and replaces every row whose id
      equals the id of the record the server returns; registering puts the
      returned record first. Either success then closes the modal; a rejected
      call changes nothing. */
  function Submit(s: State, reply: Outcome<Amc>): (st: Step<State, Call>)
    ensures !Submittable(s.form) ==> Inert(st, s)
    ensures Submittable(s.form) && s.editing.Some? ==> st.calls == [UpdateAmc(s.editing.value.id, s.form)]
    ensures Submittable(s.form) && s.editing.None? ==> st.calls == [CreateAmc(s.form)]
    ensures Submittable(s.form) && s.editing.Some? && reply.Success? ==>
      var rec := reply.value;
      && |st.next.amcs| == |s.amcs|
      && (forall i :: 0 <= i < |s.amcs| && s.amcs[i].id == rec.id ==> st.next.amcs[i] == rec)
      && (forall i :: 0 <= i < |s.amcs| && s.amcs[i].id != rec.id ==> st.next.amcs[i] == s.amcs[i])
    ensures Submittable(s.form) && s.editing.None? && reply.Success? ==>
      st.next.amcs == [reply.value] + s.amcs
    ensures Submittable(s.form) && reply.Success? ==>
      !st.next.showModal && st.next.editing.None? && st.next.form == InitialForm()
    ensures reply.Failure? ==> st.next == s
  {
    if !Submittable(s.form) then Step(s, [])
    else
      match s.editing
      case Some(e) =>
        var call := UpdateAmc(e.id, s.form);
        (match reply
         case Success(rec) => Step(Close(s.(amcs := Keyed.MapWhere(s.amcs, KeyOf, rec.id, (_: Amc) => rec))), [call])
         case Failure => Step(s, [call]))
      case None =>
        var call := CreateAmc(s.form);
        match reply
        case Success(rec) => Step(Close(s.(amcs := [rec] + s.amcs)), [call])
        case Failure => Step(s, [call])
  }

  /** The trash icon: asks first; a confirmed, successful delete drops every
      contract with that id and keeps every other one, as often as it
      occurs and in order. */
  function Delete(s: State, a: Amc, confirmed: bool, reply: Outcome<()>): (st: Step<State, Call>)
    ensures !confirmed ==> Inert(st, s)
    ensures confirmed ==> st.calls == [DeleteAmc(a.id)]
    ensures confirmed && reply.Success? ==>
      && (forall x :: x in st.next.amcs <==> x in s.amcs && x.id != a.id)
      && (forall x: Amc :: x.id != a.id ==> multiset(st.next.amcs)[x] == multiset(s.amcs)[x])
      && Keyed.IsSubsequence(st.next.amcs, s.amcs)
      && st.next == s.(amcs := st.next.amcs)
    ensures reply.Failure? ==> st.next == s
  {
    if !confirmed then Step(s, [])
    else
      match reply
      case Success(_) => Step(s.(amcs := Keyed.RemoveKey(s.amcs, KeyOf, a.id)), [DeleteAmc(a.id)])
      case Failure => Step(s, [DeleteAmc(a.id)])
  }

  /** Registering a contract under a fresh id and then deleting it gives back
      the list the page started from. */
  lemma RegisterThenDeleteRestores(s: State, rec: Amc)
    requires Submittable(s.form) && s.editing.None?
    requires forall i :: 0 <= i < |s.amcs| ==> s.amcs[i].id != rec.id
    ensures Delete(Submit(s, Success(rec)).next, rec, true, Success(())).next.amcs == s.amcs
  {
    Keyed.RemoveKeyOfPrepended(rec, s.amcs, KeyOf);
  }

  /** Saving an edit whose reply is unchanged gives back the list: a row is
      only ever replaced by the record the server returned for its id. */
  lemma EditUnchangedKeepsList(s: State, i: int)
    requires Submittable(s.form) && s.editing.Some?
    requires 0 <= i < |s.amcs|
    requires forall j :: 0 <= j < |s.amcs| && s.amcs[j].id == s.amcs[i].id ==> s.amcs[j] == s.amcs[i]
    ensures Submit(s, Success(s.amcs[i])).next.amcs == s.amcs
  {
    var r := Submit(s, Success(s.amcs[i])).next.amcs;
    assert |r| == |s.amcs|;
    forall j | 0 <= j < |s.amcs|
      ensures r[j] == s.amcs[j]
    {
    }
  }
}

=== FILE: amc_registry.dfy ===
/** The detailed contract registry (src/pages/AMC/AMCManagement.jsx): a list
    of detailed contracts searched by owner or company name, created through
    the detailed form, deleted without confirmation.
 */
module AmcRegistry {
  import opened Wrappers
  import Js
  import Keyed
  import Text
  import DetailedAmc

  /** A stored detailed contract, reduced to what the page reads to filter
      and delete; both names may be absent. */
  datatype Record = Record(id: string, ownerName: Option<string>, companyName: Option<string>)

  datatype State = State(amcs: seq<Record>, searchTerm: string, showDetailed: bool)

  datatype Call = FetchAmcs | CreateDetailed(form: DetailedAmc.Form) | DeleteAmc(id: string)

  /** `name?.toLowerCase().includes(term.toLowerCase())`: an absent name
      short-circuits to `undefined`, which does not match. */
  predicate NameMatches(name: Option<string>, term: string) {
    name.Some? && Text.Includes(Text.ToLower(name.value), Text.ToLower(term))
  }

  predicate Matches(a: Record, term: string) {
    NameMatches(a.ownerName, term) || NameMatches(a.companyName, term)
  }

  /** `filteredAmcs`: the records whose owner or company name contains the
      term, ignoring ASCII case, in list order and each as often as it occurs. */
  function Filtered(s: State): (r: seq<Record>)
    ensures forall a :: a in r <==> a in s.amcs && Matches(a, s.searchTerm)
    ensures forall a :: Matches(a, s.searchTerm) ==> multiset(r)[a] == multiset(s.amcs)[a]
    ensures Keyed.IsSubsequence(r, s.amcs)
  {
    var keep := (a: Record) => Matches(a, s.searchTerm);
    Keyed.FilterKeepsCount(s.amcs, keep);
    Keyed.FilterIsSubsequence(s.amcs, keep);
    Keyed.Filter(s.amcs, keep)
  }

  /** A match means the lower-cased term occurs at some position of the
      lower-cased owner or company name. */
  lemma MatchesIffOccurs(a: Record, term: string)
    ensures Matches(a, term) <==>
      || (a.ownerName.Some? && exists i :: Text.OccursAt(Text.ToLower(a.ownerName.value), Text.ToLower(term), i))
      || (a.companyName.Some? && exists i :: Text.OccursAt(Text.ToLower(a.companyName.value), Text.ToLower(term), i))
  {
    if a.ownerName.Some? {
      Text.IncludesIffOccurs(Text.ToLower(a.ownerName.value), Text.ToLower(term));
    }
    if a.companyName.Some? {
      Text.IncludesIffOccurs(Text.ToLower(a.companyName.value), Text.ToLower(term));
    }
  }

  /** An empty search shows every record that has an owner or company name,
      and never one that has neither. */
  lemma EmptySearchShowsNamed(s: State, a: Record)
    requires s.searchTerm == "" && a in s.amcs
    ensures a in Filtered(s) <==> a.ownerName.Some? || a.companyName.Some?
  {
    if a.ownerName.Some? {
      Text.IncludesEmpty(Text.ToLower(a.ownerName.value));
    }
    if a.companyName.Some? {
      Text.IncludesEmpty(Text.ToLower(a.companyName.value));
    }
  }

  /** `load` as written: `res.data || []` keeps any truthy body, array or not. */
  function LoadedAsWritten(body: Js.Value<Record>): (v: Js.Value<Record>)
    ensures body.Truthy() ==> v == body
    ensures !body.Truthy() ==> v == Js.Arr([])
  {
    Js.OrEmpty(body)
  }

  /** A body that is an object (an envelope around the list, say) is stored
      as the "list" unchanged, so the filter then runs on a non-array. */
  lemma LoadedAsWrittenKeepsObject(fields: map<string, Js.Value<Record>>)
    ensures !LoadedAsWritten(Js.Obj(fields)).Arr?
  {
  }

  /** `load`, storing only arrays: an array body becomes the list, anything
      else the empty list; a rejected fetch keeps the list. */
  function Load(s: State, reply: Outcome<Js.Value<Record>>): (s': State)
    ensures reply.Success? && reply.value.Arr? ==> s'.amcs == reply.value.items
    ensures reply.Success? && !reply.value.Arr? ==> s'.amcs == []
    ensures reply.Failure? ==> s' == s
    ensures s'.searchTerm == s.searchTerm && s'.showDetailed == s.showDetailed
  {
    match reply
    case Success(body) => s.(amcs := Js.ArrayOrEmpty(body))
    case Failure => s
  }

  /** Wherever the page as written does store an array, it is the one `Load` stores. */
  lemma LoadAgreesOnArrays(s: State, body: Js.Value<Record>)
    ensures LoadedAsWritten(body).Arr? ==> LoadedAsWritten(body).items == Load(s, Success(body)).amcs
    ensures LoadedAsWritten(body).Arr? <==> body.Arr? || !body.Truthy()
  {
    Js.OrEmptyIsArrayIff(body);
  }

  /** `handleSaveDetailed`: on success the created record goes first and the
      modal closes; on failure the page keeps list and modal. */
  function HandleSaveDetailed(s: State, form: DetailedAmc.Form, reply: Outcome<Record>): (st: Step<State, Call>)
    ensures st.calls == [CreateDetailed(form)]
    ensures reply.Success? ==>
      && st.next.amcs == [reply.value] + s.amcs
      && !st.next.showDetailed && st.next.searchTerm == s.searchTerm
    ensures reply.Failure? ==> st.next == s
  {
    match reply
    case Success(rec) => Step(s.(amcs := [rec] + s.amcs, showDetailed := false), [CreateDetailed(form)])
    case Failure => Step(s, [CreateDetailed(form)])
  }

  /** `handleSaveDetailed` as written. src/api/amcApi.js exports no
      `createDetailedAMC`, so the imported name is `undefined` (where the module
      loads at all; a strict module loader refuses the whole page). Calling it
      throws inside the `try`, the catch raises an alert, no request leaves
      and the list and modal stay as they were. */
  function HandleSaveDetailedAsWritten(s: State, form: DetailedAmc.Form): (st: Step<State, Call>)
    ensures st.calls == [] && st.next == s
  {
    Step(s, [])
  }

  /** As written, saving never adds the record and never closes the modal,
      whatever the server would have returned; the intended handler adds it
      on success and agrees with the code as written only on a failed create. */
  lemma SaveAsWrittenNeverAdds(s: State, form: DetailedAmc.Form, rec: Record)
    ensures |HandleSaveDetailedAsWritten(s, form).next.amcs| == |s.amcs|
    ensures HandleSaveDetailedAsWritten(s, form).next.showDetailed == s.showDetailed
    ensures |HandleSaveDetailed(s, form, Success(rec)).next.amcs| == |s.amcs| + 1
    ensures HandleSaveDetailedAsWritten(s, form).next == HandleSaveDetailed(s, form, Failure).next
  {
  }

  /** The trash button: no confirmation; the delete is sent at once and a
      successful one reloads the list instead of filtering it locally. */
  function Delete(s: State, id: string, reply: Outcome<()>): (st: Step<State, Call>)
    ensures st.next == s
    ensures |st.calls| >= 1 && st.calls[0] == DeleteAmc(id)
    ensures st.calls[1..] == (if reply.Success? then [FetchAmcs] else [])
  {
    Step(s, if reply.Success? then [DeleteAmc(id), FetchAmcs] else [DeleteAmc(id)])
  }

  /** A new record the server returns is visible under the current search
      exactly when it matches it. */
  lemma SavedVisibleIffMatches(s: State, form: DetailedAmc.Form, rec: Record)
    ensures rec in Filtered(HandleSaveDetailed(s, form, Success(rec)).next) <==> Matches(rec, s.searchTerm)
  {
  }
}

=== FILE: contracts.dfy ===
/** Service contracts (src/pages/ContractPage.jsx): a searchable list, a
    creation form with typed inputs and a growable equipment table, and
    deletion after confirmation. Creates and deletes reload the list.

    `Number(...)` yields a floating-point number the model does not
    evaluate: a converted field is kept as the text it was converted from.
 */
module Contracts {
  import opened Wrappers
  import Js
  import Keyed
  import Text

  const DEFAULT_EQUIPMENT_TYPE := "Computer"
  const DEFAULT_QUANTITY := 1

  /** A form field value: typed text, a number literal the page wrote
      itself, or `Number(source)` of some text. */
  datatype FieldValue = Str(text: string) | Lit(n: int) | NumberOf(source: string)

  /** The named inputs of the form, each written by the shared change handler. */
  datatype Field =
    | Username | Mobile | Email | Address
    | NoOfLaptop | NoOfComputer | NoOfPrinter | NoOfScanner
    | StartingDate | EndDate | Price

  const ALL_FIELDS: set<Field> :=
    {Username, Mobile, Email, Address, NoOfLaptop, NoOfComputer, NoOfPrinter, NoOfScanner, StartingDate, EndDate, Price}

  /** The inputs declared `type="number"`; dates and text inputs are not. */
  predicate IsNumberInput(f: Field) {
    f in {NoOfLaptop, NoOfComputer, NoOfPrinter, NoOfScanner, Price}
  }

  /** The fields converted with `Number(...)` before submission: the same five. */
  predicate IsNumericField(f: Field) {
    f.NoOfLaptop? || f.NoOfComputer? || f.NoOfPrinter? || f.NoOfScanner? || f.Price?
  }

  /** An equipment row, keyed by the clock reading taken when it was added. */
  datatype Equipment = Equipment(id: int, kind: string, config: string, quantity: FieldValue)

  datatype EquipmentField = KindColumn | ConfigColumn | QuantityColumn

  datatype Form = Form(fields: map<Field, FieldValue>, equipment: seq<Equipment>)

  datatype Contract = Contract(id: string, username: string, mobile: string, email: string)

  datatype State = State(contracts: seq<Contract>, searchTerm: string, modalOpen: bool, form: Form)

  datatype Call = CreateContract(payload: Form) | DeleteContract(id: string) | FetchContracts

  function NewRow(now: int): (e: Equipment)
    ensures e.id == now && e.kind == DEFAULT_EQUIPMENT_TYPE && e.config == "" && e.quantity == Lit(DEFAULT_QUANTITY)
  {
    Equipment(now, DEFAULT_EQUIPMENT_TYPE, "", Lit(DEFAULT_QUANTITY))
  }

  /** `initialFormState`, with `now` the clock reading it was built at: text
      and dates empty, counts 0, price empty, one default equipment row. */
  function InitialForm(now: int): (f: Form)
    ensures f.fields.Keys == ALL_FIELDS
    ensures forall k :: k in f.fields && IsNumberInput(k) && k != Price ==> f.fields[k] == Lit(0)
    ensures forall k :: k in f.fields && !(IsNumberInput(k) && k != Price) ==> f.fields[k] == Str("")
    ensures f.equipment == [NewRow(now)]
  {
    Form(map[Username := Str(""), Mobile := Str(""), Email := Str(""), Address := Str(""),
             NoOfLaptop := Lit(0), NoOfComputer := Lit(0), NoOfPrinter := Lit(0), NoOfScanner := Lit(0),
             StartingDate := Str(""), EndDate := Str(""), Price := Str("")],
         [NewRow(now)])
  }

  /** Every field of the form has an entry in the initial state. */
  lemma AllFieldsPresent(f: Field, now: int)
    ensures f in InitialForm(now).fields
  {
  }

  /** What the change handler stores: for a number input, 0 for a cleared
      input and `Number(value)` otherwise; for any other input, the text. */
  function Stored(f: Field, value: string): (v: FieldValue)
    ensures IsNumberInput(f) && value == "" ==> v == Lit(0)
    ensures IsNumberInput(f) && value != "" ==> v == NumberOf(value)
    ensures !IsNumberInput(f) ==> v == Str(value)
  {
    if IsNumberInput(f) then (if value == "" then Lit(0) else NumberOf(value)) else Str(value)
  }

  /** `handleChange`: only the named field changes. */
  function HandleChange(form: Form, f: Field, value: string): (r: Form)
    ensures r.fields.Keys == form.fields.Keys + {f}
    ensures r.fields[f] == Stored(f, value)
    ensures forall k :: k in form.fields && k != f ==> r.fields[k] == form.fields[k]
    ensures r.equipment == form.equipment
  {
    form.(fields := form.fields[f := Stored(f, value)])
  }

  /** A number input never stores raw text, so the submitted counts and price
      are all numbers once the form has been edited through its inputs. */
  lemma NumberInputNeverText(form: Form, f: Field, value: string)
    requires IsNumberInput(f)
    ensures !HandleChange(form, f, value).fields[f].Str?
  {
  }

  /** `addEquipmentRow`: the rows so far, then a default row keyed by `now`. */
  function AddEquipmentRow(form: Form, now: int): (r: Form)
    ensures r.equipment == form.equipment + [NewRow(now)]
    ensures r.fields == form.fields
  {
    form.(equipment := form.equipment + [NewRow(now)])
  }

  function RowKey(e: Equipment): int {
    e.id
  }

  /** `removeEquipmentRow(id)`: drops every row with that id and keeps every
      other row, as often as it occurs and in order. */
  function RemoveEquipmentRow(form: Form, id: int): (r: Form)
    ensures forall e :: e in r.equipment <==> e in form.equipment && e.id != id
    ensures forall e: Equipment :: e.id != id ==> multiset(r.equipment)[e] == multiset(form.equipment)[e]
    ensures Keyed.IsSubsequence(r.equipment, form.equipment)
    ensures r.fields == form.fields
  {
    form.(equipment := Keyed.RemoveKey(form.equipment, RowKey, id))
  }

  /** Adding a row at a fresh clock reading and removing it restores the table. */
  lemma AddThenRemoveRestores(form: Form, now: int)
    requires forall i :: 0 <= i < |form.equipment| ==> form.equipment[i].id != now
    ensures RemoveEquipmentRow(AddEquipmentRow(form, now), now) == form
  {
    Keyed.RemoveKeyAppend(form.equipment, [NewRow(now)], RowKey, now);
  }

  /** Two rows added at the same clock reading share an id, and removing
      either removes both. */
  lemma SameInstantRowsRemovedTogether(form: Form, now: int)
    ensures RemoveEquipmentRow(AddEquipmentRow(AddEquipmentRow(form, now), now), now).equipment
            == RemoveEquipmentRow(form, now).equipment
  {
    var row := NewRow(now);
    Keyed.RemoveKeyAppend(form.equipment + [row], [row], RowKey, now);
    Keyed.RemoveKeyAppend(form.equipment, [row], RowKey, now);
  }

  /** `handleEquipmentChange(id, field, value)`: the rows with that id take
      the value, converted with `Number` for the quantity column; the other
      rows keep theirs. */
  function ChangeEquipment(form: Form, id: int, field: EquipmentField, value: string): (r: Form)
    ensures |r.equipment| == |form.equipment|
    ensures forall i :: 0 <= i < |form.equipment| && form.equipment[i].id != id ==> r.equipment[i] == form.equipment[i]
    ensures forall i :: 0 <= i < |form.equipment| && form.equipment[i].id == id ==>
      var e := form.equipment[i];
      r.equipment[i] == (match field
                          case KindColumn => e.(kind := value)
                          case ConfigColumn => e.(config := value)
                          case QuantityColumn => e.(quantity := NumberOf(value)))
    ensures r.fields == form.fields
  {
    form.(equipment := Keyed.MapWhere(form.equipment, RowKey, id, (e: Equipment) =>
      match field
      case KindColumn => e.(kind := value)
      case ConfigColumn => e.(config := value)
      case QuantityColumn => e.(quantity := NumberOf(value))))
  }

  /** Of two edits to the same column of the same rows, the later one wins. */
  lemma ChangeEquipmentLastWriteWins(form: Form, id: int, field: EquipmentField, v1: string, v2: string)
    ensures ChangeEquipment(ChangeEquipment(form, id, field, v1), id, field, v2) == ChangeEquipment(form, id, field, v2)
  {
    var a := ChangeEquipment(ChangeEquipment(form, id, field, v1), id, field, v2);
    var b := ChangeEquipment(form, id, field, v2);
    assert forall i :: 0 <= i < |form.equipment| ==> a.equipment[i] == b.equipment[i];
  }

  /** Typing back what a column already holds leaves the form as it was. */
  lemma ChangeEquipmentWriteBack(form: Form, id: int, field: EquipmentField, value: string)
    requires forall i :: 0 <= i < |form.equipment| && form.equipment[i].id == id ==>
      match field
      case KindColumn => form.equipment[i].kind == value
      case ConfigColumn => form.equipment[i].config == value
      case QuantityColumn => form.equipment[i].quantity == NumberOf(value)
    ensures ChangeEquipment(form, id, field, value) == form
  {
    var r := ChangeEquipment(form, id, field, value);
    assert forall i :: 0 <= i < |form.equipment| ==> r.equipment[i] == form.equipment[i];
  }

  /** `Number(v)` on a field value: text becomes a conversion of that text;
      a number stays that number. */
  function ToNumber(v: FieldValue): (r: FieldValue)
    ensures !r.Str?
    ensures v.Str? ==> r == NumberOf(v.text)
    ensures !v.Str? ==> r == v
  {
    match v
    case Str(t) => NumberOf(t)
    case _ => v
  }

  /** The submitted payload: the form with price and the four counts passed
      through `Number`, every other field and the equipment as typed. */
  function PayloadOf(form: Form): (p: Form)
    ensures p.fields.Keys == form.fields.Keys && p.equipment == form.equipment
    ensures forall k :: k in form.fields && IsNumericField(k) ==> p.fields[k] == ToNumber(form.fields[k])
    ensures forall k :: k in form.fields && !IsNumericField(k) ==> p.fields[k] == form.fields[k]
  {
    form.(fields := map k | k in form.fields :: if IsNumericField(k) then ToNumber(form.fields[k]) else form.fields[k])
  }

  /** Converting an already converted form changes nothing. */
  lemma PayloadIdempotent(form: Form)
    ensures PayloadOf(PayloadOf(form)) == PayloadOf(form)
  {
    var p := PayloadOf(form);
    var q := PayloadOf(p);
    assert q.fields.Keys == p.fields.Keys;
    forall k | k in p.fields
      ensures q.fields[k] == p.fields[k]
    {
    }
  }

  /** `handleSubmit`: sends the converted form; success closes the modal,
      resets the form (with a fresh equipment row keyed by `now`) and reloads;
      failure keeps modal and form for another try. */
  function Submit(s: State, now: int, reply: Outcome<()>): (st: Step<State, Call>)
    ensures |st.calls| >= 1 && st.calls[0] == CreateContract(PayloadOf(s.form))
    ensures st.calls[1..] == (if reply.Success? then [FetchContracts] else [])
    ensures reply.Success? ==>
      && !st.next.modalOpen && st.next.form == InitialForm(now)
      && st.next.contracts == s.contracts && st.next.searchTerm == s.searchTerm
    ensures reply.Failure? ==> st.next == s
  {
    var call := CreateContract(PayloadOf(s.form));
    match reply
    case Success(_) => Step(s.(modalOpen := false, form := InitialForm(now)), [call, FetchContracts])
    case Failure => Step(s, [call])
  }

  /** `handleDelete`: asks first; a confirmed delete reloads on success and
      never edits the list locally. */
  function Delete(s: State, id: string, confirmed: bool, reply: Outcome<()>): (st: Step<State, Call>)
    ensures st.next == s
    ensures !confirmed ==> st.calls == []
    ensures confirmed ==> |st.calls| >= 1 && st.calls[0] == DeleteContract(id)
    ensures confirmed ==> st.calls[1..] == (if reply.Success? then [FetchContracts] else [])
  {
    if !confirmed then Step(s, [])
    else Step(s, if reply.Success? then [DeleteContract(id), FetchContracts] else [DeleteContract(id)])
  }

  /** `loadContracts` as written: the value handed to `setContracts`, which
      is `data || []` for any body (truthy non-arrays included); a rejected
      fetch is caught and the old list stays. */
  function LoadAsWritten(s: State, reply: Outcome<Js.Value<Contract>>): (stored: Js.Value<Contract>)
    ensures reply.Failure? ==> stored == Js.Arr(s.contracts)
    ensures reply.Success? && reply.value.Truthy() ==> stored == reply.value
    ensures reply.Success? && !reply.value.Truthy() ==> stored == Js.Arr([])
  {
    match reply
    case Success(body) => Js.OrEmpty(body)
    case Failure => Js.Arr(s.contracts)
  }

  /** A non-empty string body is stored as the "list" unchanged. */
  lemma LoadAsWrittenKeepsText(s: State)
    ensures LoadAsWritten(s, Success(Js.Str("ok"))) == Js.Str("ok")
    ensures !LoadAsWritten(s, Success(Js.Str("ok"))).Arr?
  {
  }

  /** `loadContracts`, storing only arrays; a rejected fetch keeps the list. */
  function Load(s: State, reply: Outcome<Js.Value<Contract>>): (s': State)
    ensures reply.Success? && reply.value.Arr? ==> s'.contracts == reply.value.items
    ensures reply.Success? && !reply.value.Arr? ==> s'.contracts == []
    ensures reply.Failure? ==> s' == s
    ensures s'.form == s.form && s'.modalOpen == s.modalOpen && s'.searchTerm == s.searchTerm
  {
    match reply
    case Success(body) => s.(contracts := Js.ArrayOrEmpty(body))
    case Failure => s
  }

  /** The page as written stores an array exactly when the fetch fails or its
      body is an array or falsy, and then it is the list `Load` stores. */
  lemma LoadAgreesOnArrays(s: State, reply: Outcome<Js.Value<Contract>>)
    ensures LoadAsWritten(s, reply).Arr? ==> LoadAsWritten(s, reply).items == Load(s, reply).contracts
    ensures LoadAsWritten(s, reply).Arr? <==> reply.Failure? || reply.value.Arr? || !reply.value.Truthy()
  {
    if reply.Success? {
      Js.OrEmptyIsArrayIff(reply.value);
    }
  }

  /** The search: the user name contains the term ignoring ASCII case, or the
      mobile number contains it exactly. */
  predicate SearchMatches(c: Contract, term: string) {
    Text.Includes(Text.ToLower(c.username), Text.ToLower(term)) || Text.Includes(c.mobile, term)
  }

  /** `filteredContracts`: the matching contracts in list order, each as
      often as it occurs. */
  function Search(cs: seq<Contract>, term: string): (r: seq<Contract>)
    ensures forall c :: c in r <==> c in cs && SearchMatches(c, term)
    ensures forall c :: SearchMatches(c, term) ==> multiset(r)[c] == multiset(cs)[c]
    ensures Keyed.IsSubsequence(r, cs)
  {
    var keep := (c: Contract) => SearchMatches(c, term);
    Keyed.FilterKeepsCount(cs, keep);
    Keyed.FilterIsSubsequence(cs, keep);
    Keyed.Filter(cs, keep)
  }

  /** An empty search lists every contract, in order. */
  lemma EmptySearchListsAll(cs: seq<Contract>)
    ensures Search(cs, "") == cs
  {
    forall i | 0 <= i < |cs|
      ensures SearchMatches(cs[i], "")
    {
      Text.IncludesEmpty(cs[i].mobile);
    }
    Keyed.FilterAllKept(cs, (c: Contract) => SearchMatches(c, ""));
  }
}

=== FILE: demo_staff.dfy ===
/** The demo staff screen (src/pages/StaffManagement.jsx): a local list with a
    stand-in create API, an edit that merges the form into the selected
    member, and an Active/Disabled toggle behind a confirmation dialog.
 */
module DemoStaff {
  import opened Wrappers
  import Keyed

  const ACTIVE := "Active"
  const DISABLED := "Disabled"
  const DEFAULT_ROLE := "Editor"

  datatype Member = Member(id: int, name: string, email: string, role: string, status: string)

  datatype Form = Form(name: string, email: string, role: string)

  datatype State = State(
    users: seq<Member>,
    showModal: bool,
    editMode: bool,
    selected: Option<Member>,     // the member being edited
    confirming: Option<Member>,   // the member the toggle dialog is about
    form: Form)

  /** What the stand-in `createUserAPI` resolves to. */
  datatype ApiReply = ApiReply(success: bool, data: Member)

  function EmptyForm(): (f: Form)
    ensures f.name == "" && f.email == "" && f.role == DEFAULT_ROLE
  {
    Form("", "", DEFAULT_ROLE)
  }

  function Initial(): (s: State)
    ensures |s.users| == 2
    ensures forall i :: 0 <= i < |s.users| ==> s.users[i].status == ACTIVE
    ensures s.form == EmptyForm() && s.confirming.None?
  {
    State(
      [ Member(1, "Admin User", "admin@awanti.com", "Super Admin", ACTIVE),
        Member(2, "Service Tech", "tech@awanti.com", "Editor", ACTIVE) ],
      false, false, None, None, EmptyForm())
  }

  function KeyOf(m: Member): int {
    m.id
  }

  /** `createUserAPI(payload)`: always succeeds with `{ id: now, ...payload, status: "Active" }`;
      the clock reading `now` is passed in. */
  function CreateUserApi(payload: Form, now: int): (r: ApiReply)
    ensures r.success
    ensures r.data.id == now && r.data.status == ACTIVE
    ensures r.data.name == payload.name && r.data.email == payload.email && r.data.role == payload.role
  {
    ApiReply(true, Member(now, payload.name, payload.email, payload.role, ACTIVE))
  }

  /** `handleCreateUser`: a no-op unless both name and email are non-empty;
      otherwise the new member is appended after the unchanged earlier
      entries and the form is cleared. */
  function HandleCreate(s: State, now: int): (s': State)
    ensures s.form.name == "" || s.form.email == "" ==> s' == s
    ensures s.form.name != "" && s.form.email != "" ==>
      && |s'.users| == |s.users| + 1
      && s'.users[..|s.users|] == s.users
      && s'.users[|s.users|] == Member(now, s.form.name, s.form.email, s.form.role, ACTIVE)
      && s'.form == EmptyForm() && !s'.showModal
      && s'.editMode == s.editMode && s'.selected == s.selected && s'.confirming == s.confirming
  {
    if s.form.name == "" || s.form.email == "" then s
    else
      var res := CreateUserApi(s.form, now);
      if res.success then
        assert (s.users + [res.data])[..|s.users|] == s.users;
        s.(users := s.users + [res.data], showModal := false, form := EmptyForm())
      else s
  }

  /** `handleEditUser`: select the member and copy its three fields into the form. */
  function EditUser(s: State, user: Member): (s': State)
    ensures s'.editMode && s'.showModal && s'.selected == Some(user)
    ensures s'.form == Form(user.name, user.email, user.role)
    ensures s'.users == s.users
  {
    s.(editMode := true, selected := Some(user), form := Form(user.name, user.email, user.role), showModal := true)
  }

  /** `{ ...user, ...formData }`. */
  function Merge(u: Member, f: Form): Member {
    u.(name := f.name, email := f.email, role := f.role)
  }

  /** `handleUpdateUser`. The selected member is read for its id, so the
      handler needs one (the edit modal is only reached through `EditUser`).
      Every member with that id takes the form's name, email and role and
      keeps its id and status; every other member is unchanged; afterwards
      the form is cleared and edit mode is off. */
  function HandleUpdate(s: State): (s': State)
    requires s.selected.Some?
    ensures |s'.users| == |s.users|
    ensures forall i :: 0 <= i < |s.users| && s.users[i].id == s.selected.value.id ==>
      && s'.users[i].id == s.users[i].id && s'.users[i].status == s.users[i].status
      && s'.users[i].name == s.form.name && s'.users[i].email == s.form.email
      && s'.users[i].role == s.form.role
    ensures forall i :: 0 <= i < |s.users| && s.users[i].id != s.selected.value.id ==> s'.users[i] == s.users[i]
    ensures s'.form == EmptyForm() && !s'.showModal && !s'.editMode && s'.selected.None?
  {
    var f := s.form;
    var users := Keyed.MapWhere(s.users, KeyOf, s.selected.value.id, (u: Member) => Merge(u, f));
    s.(users := users, showModal := false, editMode := false, selected := None, form := EmptyForm())
  }

  /** The status the toggle writes: `Active` becomes `Disabled`, anything else `Active`. */
  function Flip(status: string): (r: string)
    ensures r == ACTIVE || r == DISABLED
    ensures status == ACTIVE <==> r == DISABLED
  {
    if status == ACTIVE then DISABLED else ACTIVE
  }

  /** Flipping twice restores exactly the statuses `Active` and `Disabled`;
      any other starting status ends up `Disabled`. */
  lemma FlipTwice(status: string)
    ensures Flip(Flip(status)) == status <==> status == ACTIVE || status == DISABLED
    ensures status != ACTIVE && status != DISABLED ==> Flip(Flip(status)) == DISABLED
  {
  }

  function FlipStatus(u: Member): Member {
    u.(status := Flip(u.status))
  }

  /** The row menu's Disable/Enable item opens the confirmation dialog for
      that member and changes nothing else. */
  function OpenConfirm(s: State, user: Member): (s': State)
    ensures s'.confirming == Some(user)
    ensures s'.users == s.users && s'.form == s.form && s'.selected == s.selected
    ensures s'.showModal == s.showModal && s'.editMode == s.editMode
  {
    s.(confirming := Some(user))
  }

  /** The row menu's Disable/Enable item as written: it calls
      `toggleUserStatus` before opening the dialog, so the updater reads the
      dialog member of the current render. With no dialog open that member is
      `null` and the updater throws on `.id` as soon as the list has an entry,
      which ends the page (`None`); with a dialog open it flips that earlier
      member and then points the dialog at `user`. */
  function MenuToggleAsWritten(s: State, user: Member): (r: Option<State>)
    ensures s.confirming.None? ==> (r.None? <==> |s.users| > 0)
    ensures r.Some? ==> r.value.confirming == Some(user) && r.value.form == s.form
    ensures s.confirming.Some? ==> r.Some? && r.value.users == ConfirmToggle(s).users
  {
    if s.confirming.Some? then Some(ConfirmToggle(s).(confirming := Some(user)))
    else if |s.users| == 0 then Some(OpenConfirm(s, user))
    else None
  }

  /** `toggleUserStatus` from the dialog's Confirm button: flips the status of
      every member with the dialog member's id, leaves everyone else alone,
      and closes the dialog. */
  function ConfirmToggle(s: State): (s': State)
    requires s.confirming.Some?
    ensures |s'.users| == |s.users|
    ensures forall i :: 0 <= i < |s.users| && s.users[i].id == s.confirming.value.id ==>
      s'.users[i] == s.users[i].(status := Flip(s.users[i].status))
    ensures forall i :: 0 <= i < |s.users| && s.users[i].id != s.confirming.value.id ==> s'.users[i] == s.users[i]
    ensures s'.confirming.None? && s'.form == s.form
  {
    s.(users := Keyed.MapWhere(s.users, KeyOf, s.confirming.value.id, FlipStatus), confirming := None)
  }

  /** Toggling the same member twice through the dialog gives back the list
      it started from, provided that member's status was `Active` or `Disabled`. */
  lemma ToggleTwiceRestores(s: State, user: Member)
    requires forall i :: 0 <= i < |s.users| && s.users[i].id == user.id ==>
      s.users[i].status == ACTIVE || s.users[i].status == DISABLED
    ensures ConfirmToggle(OpenConfirm(ConfirmToggle(OpenConfirm(s, user)), user)).users == s.users
  {
    Keyed.MapWhereInvolution(s.users, KeyOf, user.id, FlipStatus);
  }

  /** Opening the edit view on a member and saving the form untouched gives
      back the list, when that member is the only record under its id. */
  lemma EditThenUpdateUnchanged(s: State, u: Member)
    requires forall i :: 0 <= i < |s.users| && s.users[i].id == u.id ==> s.users[i] == u
    ensures HandleUpdate(EditUser(s, u)).users == s.users
  {
    var r := HandleUpdate(EditUser(s, u)).users;
    assert forall i :: 0 <= i < |s.users| ==> r[i] == s.users[i];
  }

  /** The screen's events. `EditClicked` and the edit-mode branch of
      `Submitted` run `handleEditUser` and `handleUpdateUser`, which no
      control of the screen calls (the menu's Edit item only alerts), so
      the event set is a superset of what the screen can emit. */
  datatype Event =
    | AddClicked
    | ModalClosed
    | FormTyped(form: Form)
    | Submitted(now: int)
    | EditClicked(member: Member)
    | ToggleClicked(member: Member)
    | ToggleConfirmed
    | ToggleCancelled

  /** One event. The modal's submit button runs the update in edit mode and
      the create otherwise; an update with no selected member and a confirm
      with no dialog member throw on the missing id and change nothing. The
      menu's Disable/Enable item only opens the dialog (`OpenConfirm`), as
      intended, not as written (`MenuToggleAsWritten`). */
  function Apply(s: State, e: Event): State {
    match e
    case AddClicked => s.(showModal := true)
    case ModalClosed => s.(showModal := false)
    case FormTyped(f) => s.(form := f)
    case Submitted(now) =>
      if !s.editMode then HandleCreate(s, now)
      else if s.selected.Some? then HandleUpdate(s)
      else s
    case EditClicked(u) => EditUser(s, u)
    case ToggleClicked(u) => OpenConfirm(s, u)
    case ToggleConfirmed => if s.confirming.Some? then ConfirmToggle(s) else s
    case ToggleCancelled => s.(confirming := None)
  }

  function Run(s: State, es: seq<Event>): State
    decreases |es|
  {
    if |es| == 0 then s else Run(Apply(s, es[0]), es[1..])
  }

  /** Every member is `Active` or `Disabled`. */
  predicate KnownStatuses(users: seq<Member>) {
    forall i :: 0 <= i < |users| ==> users[i].status == ACTIVE || users[i].status == DISABLED
  }

  /** Creates add `Active` members, updates keep statuses and the toggle
      writes only the two values, so no event brings in a third status. */
  lemma ApplyKeepsKnownStatuses(s: State, e: Event)
    requires KnownStatuses(s.users)
    ensures KnownStatuses(Apply(s, e).users)
  {
  }

  lemma {:induction false} RunKeepsKnownStatuses(s: State, es: seq<Event>)
    requires KnownStatuses(s.users)
    ensures KnownStatuses(Run(s, es).users)
    decreases |es|
  {
    if |es| > 0 {
      ApplyKeepsKnownStatuses(s, es[0]);
      RunKeepsKnownStatuses(Apply(s, es[0]), es[1..]);
    }
  }

  /** No event removes a member. */
  lemma ApplyKeepsMembers(s: State, e: Event)
    ensures |Apply(s, e).users| >= |s.users|
  {
  }

  lemma {:induction false} RunKeepsMembers(s: State, es: seq<Event>)
    ensures |Run(s, es).users| >= |s.users|
    decreases |es|
  {
    if |es| > 0 {
      ApplyKeepsMembers(s, es[0]);
      RunKeepsMembers(Apply(s, es[0]), es[1..]);
    }
  }

  /** The seeded list never empties, so on every state the screen reaches
      with the dialog closed, the menu's Disable/Enable item as written
      throws instead of opening the dialog. */
  lemma MenuToggleAsWrittenCrashes(es: seq<Event>, user: Member)
    requires Run(Initial(), es).confirming.None?
    ensures MenuToggleAsWritten(Run(Initial(), es), user).None?
    ensures OpenConfirm(Run(Initial(), es), user).confirming == Some(user)
  {
    RunKeepsMembers(Initial(), es);
  }

  /** On every state the screen can reach, toggling a member twice through
      the dialog restores the list. */
  lemma ReachableToggleTwiceRestores(es: seq<Event>, user: Member)
    ensures var s := Run(Initial(), es);
      ConfirmToggle(OpenConfirm(ConfirmToggle(OpenConfirm(s, user)), user)).users == s.users
  {
    RunKeepsKnownStatuses(Initial(), es);
    ToggleTwiceRestores(Run(Initial(), es), user);
  }
}

=== FILE: detailed_amc.dfy ===
/** The detailed contract form (src/pages/AMC/DetailedAMCModal.jsx): client
    details, four asset counts, a growable table of per-computer
    configurations and a payment method, handed to the caller's save
    callback as one record.
 */
module DetailedAmc {
  import opened Wrappers
  import Text

  const DEFAULT_COMPANY := "AWANTI TECHNOLOGIES"
  const DEFAULT_ON_NETWORK := "yes"
  const DEFAULT_OS := "Windows"
  const DEFAULT_PAYMENT_CYCLE := "Yearly"
  const DEFAULT_RATE_PER_PC: real := 1600.0

  /** The two payment radios, in the order they are rendered. */
  datatype PaymentMethod = Cheque | Cash {
    function Name(): (n: string)
      ensures n in PAYMENT_METHODS
    {
      match this
      case Cheque => "Cheque"
      case Cash => "Cash"
    }
  }

  const PAYMENT_METHODS: seq<string> := ["Cheque", "Cash"]

  /** One row of the hardware table. */
  datatype ConfigRow = ConfigRow(user: string, config: string)

  function EmptyRow(): ConfigRow {
    ConfigRow("", "")
  }

  datatype Form = Form(
    ownerName: string,
    companyName: string,
    email: string,
    address: string,
    siteAddress: string,
    contactNo: string,
    numLaptops: int,
    numComputers: int,
    numPrinters: int,
    numScanners: int,
    configs: seq<ConfigRow>,
    onNetwork: string,
    osType: string,
    paymentCycle: string,
    ratePerPc: real,
    paymentMethod: string)

  /** The four asset-count inputs. */
  datatype Asset = Laptops | Computers | Printers | Scanners

  /** The two editable columns of a hardware row. */
  datatype ConfigField = UserColumn | ConfigColumn

  /** Every input of the form that writes to it. */
  datatype Edit =
    | SetOwner(v: string)
    | SetEmail(v: string)
    | SetAddress(v: string)
    | SetContact(v: string)
    | SetCount(asset: Asset, raw: string)
    | AddConfigRow
    | UpdateConfig(index: int, field: ConfigField, value: string)
    | DeleteConfigRow(index: int)
    | ChoosePayment(choice: PaymentMethod)
    | SetRate(parsed: Option<real>)   // `parseFloat` of the unit-rate text; `None` is `NaN`

  /** The form a fresh modal holds: one empty hardware row, zero assets, the
      company's own name, a rate of 1600 per computer, payment by cheque. */
  function InitialForm(): (f: Form)
    ensures f.configs == [EmptyRow()]
    ensures f.numLaptops == 0 && f.numComputers == 0 && f.numPrinters == 0 && f.numScanners == 0
    ensures f.companyName == DEFAULT_COMPANY && f.ratePerPc == DEFAULT_RATE_PER_PC
    ensures f.paymentMethod == Cheque.Name()
    ensures f.ownerName == "" && f.email == "" && f.address == "" && f.siteAddress == "" && f.contactNo == ""
  {
    Form("", DEFAULT_COMPANY, "", "", "", "", 0, 0, 0, 0, [EmptyRow()],
         DEFAULT_ON_NETWORK, DEFAULT_OS, DEFAULT_PAYMENT_CYCLE, DEFAULT_RATE_PER_PC, Cheque.Name())
  }

  /** `parseFloat(text) || 0` for the unit-rate input, given what `parseFloat`
      returned: `NaN` (and zero) store 0, any other number is stored as is. */
  function RateOf(parsed: Option<real>): (r: real)
    ensures parsed.None? ==> r == 0.0
    ensures parsed.Some? ==> r == parsed.value
  {
    match parsed
    case Some(v) => if v != 0.0 then v else 0.0
    case None => 0.0
  }

  /** `parseInt(raw) || 0`: the parsed integer, with `NaN` (and zero) read as 0. */
  function CountOf(raw: string): (n: int)
    ensures Text.ParseInt(raw).Some? ==> n == Text.ParseInt(raw).value
    ensures Text.ParseInt(raw).None? ==> n == 0
  {
    match Text.ParseInt(raw)
    case Some(v) => if v != 0 then v else 0
    case None => 0
  }

  /** A count typed as the decimal text of a number is stored as that number. */
  lemma CountOfDecimal(n: int)
    ensures CountOf(Text.DecimalText(n)) == n
  {
    Text.ParseIntOfDecimalText(n);
  }

  /** A cleared count input stores 0. */
  lemma CountOfCleared()
    ensures CountOf("") == 0
  {
  }

  function Count(f: Form, a: Asset): int {
    match a
    case Laptops => f.numLaptops
    case Computers => f.numComputers
    case Printers => f.numPrinters
    case Scanners => f.numScanners
  }

  /** Writing one asset count leaves the other three alone. */
  function WithCount(f: Form, a: Asset, n: int): (g: Form)
    ensures Count(g, a) == n
    ensures forall b :: b != a ==> Count(g, b) == Count(f, b)
    ensures g.(numLaptops := f.numLaptops, numComputers := f.numComputers,
               numPrinters := f.numPrinters, numScanners := f.numScanners) == f
  {
    match a
    case Laptops => f.(numLaptops := n)
    case Computers => f.(numComputers := n)
    case Printers => f.(numPrinters := n)
    case Scanners => f.(numScanners := n)
  }

  /** `addConfigRow`: the rows so far, then one empty row. */
  function AddRow(rows: seq<ConfigRow>): (r: seq<ConfigRow>)
    ensures |r| == |rows| + 1
    ensures r[..|rows|] == rows && r[|rows|] == EmptyRow()
  {
    rows + [EmptyRow()]
  }

  /** `updateConfig(index, field, value)`: one column of one row takes the
      value. An index outside the table reads an undefined row, the write
      throws and the form is left as it was. */
  function UpdateRow(rows: seq<ConfigRow>, index: int, field: ConfigField, value: string): (r: seq<ConfigRow>)
    ensures |r| == |rows|
    ensures !(0 <= index < |rows|) ==> r == rows
    ensures 0 <= index < |rows| ==>
      && (field == UserColumn ==> r[index] == rows[index].(user := value))
      && (field == ConfigColumn ==> r[index] == rows[index].(config := value))
    ensures forall j :: 0 <= j < |rows| && j != index ==> r[j] == rows[j]
  {
    if 0 <= index < |rows| then
      var row := rows[index];
      rows[index := match field case UserColumn => row.(user := value) case ConfigColumn => row.(config := value)]
    else rows
  }

  /** `rows.filter((_, idx) => idx !== i)`, walking the table with the
      position counted down from `i`. */
  function DropIndex(rows: seq<ConfigRow>, i: int): (r: seq<ConfigRow>)
    ensures !(0 <= i < |rows|) ==> r == rows
    ensures 0 <= i < |rows| ==>
      && |r| == |rows| - 1
      && r[..i] == rows[..i]
      && r[i..] == rows[i + 1..]
    decreases |rows|
  {
    if |rows| == 0 then []
    else
      var rest := DropIndex(rows[1..], i - 1);
      if i == 0 then rest
      else
        assert i > 0 ==> ([rows[0]] + rest)[1..] == rest;
        [rows[0]] + rest
  }

  /** Deleting a row and reading positions back: every row before it stays
      at its place, every row after it moves up by one. */
  lemma DropIndexShifts(rows: seq<ConfigRow>, i: int, j: int)
    requires 0 <= i < |rows| && 0 <= j < |rows| - 1
    ensures j < i ==> DropIndex(rows, i)[j] == rows[j]
    ensures j >= i ==> DropIndex(rows, i)[j] == rows[j + 1]
  {
    var r := DropIndex(rows, i);
    if j < i {
      assert r[j] == r[..i][j];
    } else {
      assert r[j] == r[i..][j - i];
    }
  }

  /** Adding a row and deleting it again restores the table. */
  lemma AddThenDropRestores(rows: seq<ConfigRow>)
    ensures DropIndex(AddRow(rows), |rows|) == rows
  {
    var r := DropIndex(AddRow(rows), |rows|);
    assert r == r[..|rows|];
  }

  /** One input event applied to the form. */
  function Apply(f: Form, e: Edit): Form {
    match e
    case SetOwner(v) => f.(ownerName := v)
    case SetEmail(v) => f.(email := v)
    case SetAddress(v) => f.(address := v)
    case SetContact(v) => f.(contactNo := v)
    case SetCount(a, raw) => WithCount(f, a, CountOf(raw))
    case AddConfigRow => f.(configs := AddRow(f.configs))
    case UpdateConfig(i, field, v) => f.(configs := UpdateRow(f.configs, i, field, v))
    case DeleteConfigRow(i) => f.(configs := DropIndex(f.configs, i))
    case ChoosePayment(m) => f.(paymentMethod := m.Name())
    case SetRate(parsed) => f.(ratePerPc := RateOf(parsed))
  }

  function Run(f: Form, es: seq<Edit>): Form
    decreases |es|
  {
    if |es| == 0 then f else Run(Apply(f, es[0]), es[1..])
  }

  /** What no input of the form can change: the read-only company name, the
      site address, network, operating system and payment cycle. The
      networked-office radios and the second rate input are uncontrolled and
      never write the form. */
  predicate SameFixedFields(f: Form, g: Form) {
    && g.companyName == f.companyName
    && g.siteAddress == f.siteAddress
    && g.onNetwork == f.onNetwork
    && g.osType == f.osType
    && g.paymentCycle == f.paymentCycle
  }

  /** One event keeps the fixed fields and a valid payment method, and only
      the unit-rate input writes the rate. */
  lemma ApplyKeepsInvariant(f: Form, e: Edit)
    requires f.paymentMethod in PAYMENT_METHODS
    ensures Apply(f, e).paymentMethod in PAYMENT_METHODS
    ensures SameFixedFields(f, Apply(f, e))
    ensures !e.SetRate? ==> Apply(f, e).ratePerPc == f.ratePerPc
  {
    match e
    case SetCount(a, raw) =>
      var g := WithCount(f, a, CountOf(raw));
      assert g.companyName == f.companyName && g.paymentMethod == f.paymentMethod;
    case _ =>
  }

  /** Whatever the user does, the payment method stays one of the two the
      radios offer and the fixed fields keep their values. */
  lemma {:induction false} RunKeepsInvariant(f: Form, es: seq<Edit>)
    requires f.paymentMethod in PAYMENT_METHODS
    ensures Run(f, es).paymentMethod in PAYMENT_METHODS
    ensures SameFixedFields(f, Run(f, es))
    decreases |es|
  {
    if |es| > 0 {
      ApplyKeepsInvariant(f, es[0]);
      RunKeepsInvariant(Apply(f, es[0]), es[1..]);
    }
  }

  /** The rate the last unit-rate edit of `es` stored, if there is one. */
  function LastRate(es: seq<Edit>): (r: Option<real>)
    ensures r.None? <==> forall i :: 0 <= i < |es| ==> !es[i].SetRate?
    decreases |es|
  {
    if |es| == 0 then None
    else if es[|es| - 1].SetRate? then Some(RateOf(es[|es| - 1].parsed))
    else LastRate(es[..|es| - 1])
  }

  /** Applying one more event after a run. */
  lemma {:induction false} RunSnoc(f: Form, es: seq<Edit>, e: Edit)
    ensures Run(f, es + [e]) == Apply(Run(f, es), e)
    decreases |es|
  {
    if |es| > 0 {
      assert (es + [e])[1..] == es[1..] + [e];
      RunSnoc(Apply(f, es[0]), es[1..], e);
    }
  }

  /** The rate after any input sequence is the one the last unit-rate edit
      stored, or the starting rate when no edit touched it. */
  lemma {:induction false} RunRate(f: Form, es: seq<Edit>)
    ensures Run(f, es).ratePerPc == LastRate(es).GetOr(f.ratePerPc)
    decreases |es|
  {
    if |es| > 0 {
      var init, e := es[..|es| - 1], es[|es| - 1];
      assert es == init + [e];
      RunSnoc(f, init, e);
      RunRate(f, init);
    }
  }

  /** So every form the modal hands to its save callback, starting from the
      initial one, is addressed to the company, paid by cheque or cash, and
      priced at the last rate typed, or 1600 per computer when the rate was
      never edited. */
  lemma SavedFormFromInitial(es: seq<Edit>)
    ensures Run(InitialForm(), es).companyName == DEFAULT_COMPANY
    ensures Run(InitialForm(), es).paymentMethod in PAYMENT_METHODS
    ensures Run(InitialForm(), es).ratePerPc == LastRate(es).GetOr(DEFAULT_RATE_PER_PC)
    ensures (forall i :: 0 <= i < |es| ==> !es[i].SetRate?) ==> Run(InitialForm(), es).ratePerPc == DEFAULT_RATE_PER_PC
  {
    RunKeepsInvariant(InitialForm(), es);
    RunRate(InitialForm(), es);
  }
}

=== FILE: js.dfy ===
/** The slice of JavaScript's dynamic values that the list loaders inspect:
    truthiness, `a || b`, property reads and `Array.isArray`.

    A loaded list is an array of records; its elements are typed (`T`), while
    the envelope around it (the HTTP client's response object, its `data`
    field) stays dynamic because the pages test its shape at run time.
 */
module Js {
  import opened Wrappers

  /** A JavaScript value. Numbers are integral: `NaN` and fractions are not
      modelled. */
  datatype Value<T> =
    | Undefined
    | Null
    | Bool(b: bool)
    | Num(n: int)
    | Str(s: string)
    | Arr(items: seq<T>)
    | Obj(fields: map<string, Value<T>>)
  {
    /** JavaScript truthiness: `undefined`, `null`, `false`, `0` and `""` are falsy. */
    predicate Truthy() {
      match this
      case Undefined => false
      case Null => false
      case Bool(b) => b
      case Num(n) => n != 0
      case Str(s) => |s| > 0
      case Arr(_) => true
      case Obj(_) => true
    }

    predicate Nullish() {
      Undefined? || Null?
    }
  }

  /** `a || b`: the first operand when it is truthy, otherwise the second. */
  function Or<T>(a: Value<T>, b: Value<T>): (r: Value<T>)
    ensures a.Truthy() ==> r == a
    ensures !a.Truthy() ==> r == b
    ensures r.Truthy() <==> a.Truthy() || b.Truthy()
  {
    if a.Truthy() then a else b
  }

  /** `v.key`. Reading a property of `null` or `undefined` throws a
      `TypeError`, shown as `None`; an absent property reads `undefined`.
      Primitives are treated as having no named properties (the pages only
      read `data` and `staff`). */
  function Member<T>(v: Value<T>, key: string): (r: Option<Value<T>>)
    ensures r.None? <==> v.Nullish()
    ensures v.Obj? && key in v.fields ==> r == Some(v.fields[key])
    ensures v.Obj? && key !in v.fields ==> r == Some(Undefined)
  {
    match v
    case Undefined => None
    case Null => None
    case Obj(fields) => Some(if key in fields then fields[key] else Undefined)
    case _ => Some(Undefined)
  }

  /** `v?.key`: like `v.key`, but `undefined` instead of a `TypeError`. */
  function OptionalMember<T>(v: Value<T>, key: string): (r: Value<T>)
    ensures v.Nullish() ==> r == Undefined
    ensures !v.Nullish() ==> Member(v, key) == Some(r)
  {
    match Member(v, key)
    case None => Undefined
    case Some(m) => m
  }

  /** `Array.isArray(v) ? v : []`: the elements of an array, and nothing for
      every other value. */
  function ArrayOrEmpty<T>(v: Value<T>): (r: seq<T>)
    ensures v.Arr? ==> r == v.items
    ensures !v.Arr? ==> r == []
  {
    if v.Arr? then v.items else []
  }

  /** `v || []` taken literally: any truthy value survives, array or not. */
  function OrEmpty<T>(v: Value<T>): (r: Value<T>)
    ensures r.Truthy()
    ensures v.Truthy() ==> r == v
    ensures !v.Truthy() ==> r == Arr([])
  {
    Or(v, Arr([]))
  }

  /** `v || []` yields an array exactly when `v` is an array or falsy; a truthy
      object, string, number or `true` comes through unchanged. Where it
      does yield an array, it is the one `ArrayOrEmpty` picks. */
  lemma OrEmptyIsArrayIff<T>(v: Value<T>)
    ensures OrEmpty(v).Arr? <==> v.Arr? || !v.Truthy()
    ensures OrEmpty(v).Arr? ==> OrEmpty(v).items == ArrayOrEmpty(v)
  {
  }
}

=== FILE: keyed.dfy ===
/** Keyed record lists: the `filter` / `map` / spread idioms every page uses
    on its cached array of server records.

    A list is a `seq<T>`; `key` projects a record onto the field the page
    compares with `===` or `!==` (its `id`). Keys are not assumed unique.
 */
module Keyed {

  /** `r` is `s` with some elements left out, the rest in their original order. */
  ghost predicate IsSubsequence<T>(r: seq<T>, s: seq<T>)
    decreases |s|
  {
    || |r| == 0
    || (&& |s| > 0
        && ((r[0] == s[0] && IsSubsequence(r[1..], s[1..])) || IsSubsequence(r, s[1..])))
  }

  /** `s.filter(keep)`. */
  function Filter<T(==,!new)>(s: seq<T>, keep: T -> bool): (r: seq<T>)
    ensures |r| <= |s|
    ensures forall x :: x in r <==> x in s && keep(x)
  {
    if |s| == 0 then []
    else
      var rest := Filter(s[1..], keep);
      assert s == [s[0]] + s[1..];
      if keep(s[0]) then
        assert ([s[0]] + rest)[1..] == rest;
        [s[0]] + rest
      else
        rest
  }

  /** A filter that keeps every element returns its input. */
  lemma {:induction false} FilterAllKept<T(!new)>(s: seq<T>, keep: T -> bool)
    requires forall i :: 0 <= i < |s| ==> keep(s[i])
    ensures Filter(s, keep) == s
    decreases |s|
  {
    if |s| > 0 {
      FilterAllKept(s[1..], keep);
      assert s == [s[0]] + s[1..];
    }
  }

  /** Filtering keeps the surviving elements in their original order. */
  lemma {:induction false} FilterIsSubsequence<T(!new)>(s: seq<T>, keep: T -> bool)
    ensures IsSubsequence(Filter(s, keep), s)
    decreases |s|
  {
    if |s| > 0 {
      FilterIsSubsequence(s[1..], keep);
      var rest := Filter(s[1..], keep);
      if keep(s[0]) {
        assert ([s[0]] + rest)[1..] == rest;
      }
    }
  }

  /** Filtering keeps every kept value as often as it occurred. */
  lemma {:induction false} FilterKeepsCount<T(!new)>(s: seq<T>, keep: T -> bool)
    ensures forall x :: keep(x) ==> multiset(Filter(s, keep))[x] == multiset(s)[x]
    decreases |s|
  {
    if |s| > 0 {
      FilterKeepsCount(s[1..], keep);
      assert s == [s[0]] + s[1..];
    }
  }

  /** `s.filter(x => x.id !== k)`: drops every record whose key is `k` and
      keeps every other one, with its multiplicity and in order. */
  function RemoveKey<T(==,!new), K(==)>(s: seq<T>, key: T -> K, k: K): (r: seq<T>)
    ensures forall x :: x in r <==> x in s && key(x) != k
    ensures forall x :: key(x) != k ==> multiset(r)[x] == multiset(s)[x]
    ensures IsSubsequence(r, s)
    ensures (forall i :: 0 <= i < |s| ==> key(s[i]) != k) ==> r == s
  {
    var keep := x => key(x) != k;
    FilterKeepsCount(s, keep);
    FilterIsSubsequence(s, keep);
    if forall i :: 0 <= i < |s| ==> keep(s[i]) then
      FilterAllKept(s, keep);
      Filter(s, keep)
    else
      Filter(s, keep)
  }

  /** Removing the key of a record just put in front drops that record again:
      when `s` holds no record with that key, the removal gives back `s`. */
  lemma RemoveKeyOfPrepended<T(!new), K>(x: T, s: seq<T>, key: T -> K)
    requires forall i :: 0 <= i < |s| ==> key(s[i]) != key(x)
    ensures RemoveKey([x] + s, key, key(x)) == s
  {
    assert ([x] + s)[1..] == s;
    assert RemoveKey(s, key, key(x)) == s;
  }

  /** Removing a key twice is removing it once. */
  lemma RemoveKeyIdempotent<T(!new), K>(s: seq<T>, key: T -> K, k: K)
    ensures RemoveKey(RemoveKey(s, key, k), key, k) == RemoveKey(s, key, k)
  {
    var r := RemoveKey(s, key, k);
    assert forall i :: 0 <= i < |r| ==> r[i] in r;
  }

  /** Filtering a concatenation filters each part. */
  lemma {:induction false} FilterAppend<T(!new)>(s: seq<T>, t: seq<T>, keep: T -> bool)
    ensures Filter(s + t, keep) == Filter(s, keep) + Filter(t, keep)
    decreases |s|
  {
    if |s| > 0 {
      var x, u := s[0], s[1..];
      FilterAppend(u, t, keep);
      var fu, ft := Filter(u, keep), Filter(t, keep);
      assert (s + t)[0] == x && (s + t)[1..] == u + t;
      if keep(x) {
        assert [x] + (fu + ft) == ([x] + fu) + ft;
      }
    } else {
      assert s + t == t;
    }
  }

  /** Removing a key from a concatenation removes it from each part. */
  lemma RemoveKeyAppend<T(!new), K>(s: seq<T>, t: seq<T>, key: T -> K, k: K)
    ensures RemoveKey(s + t, key, k) == RemoveKey(s, key, k) + RemoveKey(t, key, k)
  {
    FilterAppend(s, t, x => key(x) != k);
  }

  /** `s.map(x => x.id === k ? f(x) : x)`: rewrites the records whose key is
      `k`, leaves every other position alone. */
  function MapWhere<T, K(==)>(s: seq<T>, key: T -> K, k: K, f: T -> T): (r: seq<T>)
    ensures |r| == |s|
    ensures forall i :: 0 <= i < |s| && key(s[i]) == k ==> r[i] == f(s[i])
    ensures forall i :: 0 <= i < |s| && key(s[i]) != k ==> r[i] == s[i]
  {
    if |s| == 0 then []
    else [if key(s[0]) == k then f(s[0]) else s[0]] + MapWhere(s[1..], key, k, f)
  }

  /** Rewriting twice with an `f` that is idempotent and keeps the key is
      rewriting once. */
  lemma MapWhereIdempotent<T, K>(s: seq<T>, key: T -> K, k: K, f: T -> T)
    requires forall x :: key(x) == k ==> key(f(x)) == k && f(f(x)) == f(x)
    ensures MapWhere(MapWhere(s, key, k, f), key, k, f) == MapWhere(s, key, k, f)
  {
    var once := MapWhere(s, key, k, f);
    var twice := MapWhere(once, key, k, f);
    forall i | 0 <= i < |s|
      ensures twice[i] == once[i]
    {
      if key(s[i]) == k {
        assert key(once[i]) == k;
      }
    }
  }

  /** Rewriting twice with an `f` that undoes itself and keeps the key gives
      back the original list. */
  lemma MapWhereInvolution<T, K>(s: seq<T>, key: T -> K, k: K, f: T -> T)
    requires forall i :: 0 <= i < |s| && key(s[i]) == k ==> key(f(s[i])) == k && f(f(s[i])) == s[i]
    ensures MapWhere(MapWhere(s, key, k, f), key, k, f) == s
  {
    var once := MapWhere(s, key, k, f);
    var twice := MapWhere(once, key, k, f);
    forall i | 0 <= i < |s|
      ensures twice[i] == s[i]
    {
      if key(s[i]) == k {
        assert key(once[i]) == k;
      }
    }
  }
}

=== FILE: products.dfy ===
/** Inventory (src/pages/ProductManagement.jsx): a product list loaded
    defensively, an add form whose text is trimmed before it is sent,
    deletion after confirmation, and the per-row display rules (short id,
    category label, low-stock badge).
 */
module Products {
  import opened Wrappers
  import Js
  import Keyed
  import Text

  const LOW_STOCK_LIMIT := 5
  const SHORT_ID_LENGTH := 5
  const DEFAULT_CATEGORY := "General"

  /** Product ids arrive as numbers or as strings. */
  datatype ProductId = NumId(n: int) | StrId(s: string)

  datatype Product = Product(id: ProductId, name: string, category: string, stock: int, imageUrl: Option<string>)

  /** The add form: four text inputs. */
  datatype Form = Form(name: string, category: string, price: string, stock: string)

  /** The body of a create. Price and stock are `Number(text)` of the typed
      text, kept as that text; the image url is always null. */
  datatype Payload = Payload(name: string, category: string, priceSource: string, stockSource: string, imageUrl: Option<string>)

  /** A chosen image file; its preview is an object URL made for it. */
  datatype File = File(name: string)

  datatype State = State(
    products: seq<Product>,
    modalOpen: bool,
    form: Form,
    imageFile: Option<File>,
    previewUrl: Option<string>)

  datatype Call = FetchProducts | CreateProduct(payload: Payload) | DeleteProduct(id: ProductId)

  function EmptyForm(): (f: Form)
    ensures f.name == "" && f.category == "" && f.price == "" && f.stock == ""
  {
    Form("", "", "", "")
  }

  /** `id.toString()`. */
  function IdText(id: ProductId): (t: string)
    ensures id.StrId? ==> t == id.s
    ensures id.NumId? ==> Text.ParseInt(t) == Some(id.n)
  {
    match id
    case NumId(n) => Text.ParseIntOfDecimalText(n); Text.DecimalText(n)
    case StrId(s) => s
  }

  /** `#` + `id.toString().slice(-5)`: the last five characters of the id,
      or all of it when shorter. */
  function ShortId(p: Product): (r: string)
    ensures |r| == Text.Min(SHORT_ID_LENGTH, |IdText(p.id)|)
    ensures r == IdText(p.id)[|IdText(p.id)| - |r|..]
  {
    Text.SliceFromEnd(IdText(p.id), SHORT_ID_LENGTH)
  }

  /** A short id of at most five characters is the whole id. */
  lemma ShortIdOfShort(p: Product)
    requires |IdText(p.id)| <= SHORT_ID_LENGTH
    ensures ShortId(p) == IdText(p.id)
  {
  }

  /** `category || "General"`. */
  function CategoryLabel(p: Product): (r: string)
    ensures p.category != "" ==> r == p.category
    ensures p.category == "" ==> r == DEFAULT_CATEGORY
    ensures r != ""
  {
    if p.category != "" then p.category else DEFAULT_CATEGORY
  }

  datatype StockBadge = Red | Green

  /** The stock badge is red exactly below five units. */
  function BadgeFor(p: Product): (b: StockBadge)
    ensures b == Red <==> p.stock < LOW_STOCK_LIMIT
    ensures b == Green <==> p.stock >= LOW_STOCK_LIMIT
  {
    if p.stock < LOW_STOCK_LIMIT then Red else Green
  }

  /** What the page sends for a form: name and category trimmed, price and
      stock as typed (converted by `Number`), no image. */
  function PayloadOf(f: Form): (p: Payload)
    ensures p.name == Text.Trim(f.name) && p.category == Text.Trim(f.category)
    ensures p.priceSource == f.price && p.stockSource == f.stock
    ensures p.imageUrl.None?
  {
    Payload(Text.Trim(f.name), Text.Trim(f.category), f.price, f.stock, None)
  }

  /** Trimming an already trimmed name or category changes nothing, so a
      form filled with a payload's own text sends that payload again. */
  lemma PayloadStable(f: Form)
    ensures PayloadOf(Form(PayloadOf(f).name, PayloadOf(f).category, f.price, f.stock)) == PayloadOf(f)
  {
    Text.TrimOfTrimmed(Text.Trim(f.name));
    Text.TrimOfTrimmed(Text.Trim(f.category));
  }

  /** `fetchProducts` as written: the response itself when it is an array,
      otherwise `res?.data || []`, which keeps any truthy `data`. */
  function FetchedAsWritten(res: Js.Value<Product>): (v: Js.Value<Product>)
    ensures res.Arr? ==> v == res
    ensures !res.Arr? ==> v == Js.OrEmpty(Js.OptionalMember(res, "data"))
  {
    if res.Arr? then res else Js.OrEmpty(Js.OptionalMember(res, "data"))
  }

  /** A response whose `data` is an object is stored as the product "list"
      unchanged, and the table then maps over a non-array. */
  lemma FetchedAsWrittenKeepsObject(inner: map<string, Js.Value<Product>>)
    ensures FetchedAsWritten(Js.Obj(map["data" := Js.Obj(inner)])) == Js.Obj(inner)
    ensures !FetchedAsWritten(Js.Obj(map["data" := Js.Obj(inner)])).Arr?
  {
  }

  /** `fetchProducts`, storing only arrays: an array response, else an array
      `data`, else nothing; a rejected fetch also empties the list. */
  function Fetched(reply: Outcome<Js.Value<Product>>): (r: seq<Product>)
    ensures reply.Failure? ==> r == []
    ensures reply.Success? && reply.value.Arr? ==> r == reply.value.items
    ensures reply.Success? && !reply.value.Arr? ==> r == Js.ArrayOrEmpty(Js.OptionalMember(reply.value, "data"))
  {
    match reply
    case Success(res) => if res.Arr? then res.items else Js.ArrayOrEmpty(Js.OptionalMember(res, "data"))
    case Failure => []
  }

  /** Where the page as written does store an array, it is the one `Fetched` stores. */
  lemma FetchAgreesOnArrays(res: Js.Value<Product>)
    ensures FetchedAsWritten(res).Arr? ==> FetchedAsWritten(res).items == Fetched(Success(res))
    ensures FetchedAsWritten(res).Arr? <==>
      res.Arr? || Js.OptionalMember(res, "data").Arr? || !Js.OptionalMember(res, "data").Truthy()
  {
    Js.OrEmptyIsArrayIff(Js.OptionalMember(res, "data"));
  }

  function Fetch(s: State, reply: Outcome<Js.Value<Product>>): (s': State)
    ensures s'.products == Fetched(reply)
    ensures s'.form == s.form && s'.modalOpen == s.modalOpen
  {
    s.(products := Fetched(reply))
  }

  /** `handleFileChange`: a chosen file becomes the image with its preview;
      an empty selection changes nothing. */
  function ChooseFile(s: State, file: Option<File>, objectUrl: string): (s': State)
    ensures file.Some? ==> s'.imageFile == file && s'.previewUrl == Some(objectUrl)
    ensures file.None? ==> s' == s
    ensures s'.products == s.products && s'.form == s.form
  {
    match file
    case Some(_) => s.(imageFile := file, previewUrl := Some(objectUrl))
    case None => s
  }

  /** The browser's `required` check on the form: name, price and stock must
      be non-empty before the submit event reaches the handler. A number
      input holding text that is not a number also reads as empty. */
  predicate Submittable(f: Form) {
    f.name != "" && f.price != "" && f.stock != ""
  }

  /** Submitting the add form. A form with an empty required input is
      stopped by the browser: no call, no change. Otherwise `handleAddProduct`
      sends the trimmed payload; on success it awaits the reload (whose reply
      is `refetch`), then clears form, image and preview and closes the modal.
      A rejected create changes nothing. */
  function HandleAdd(s: State, reply: Outcome<()>, refetch: Outcome<Js.Value<Product>>): (st: Step<State, Call>)
    ensures !Submittable(s.form) ==> Inert(st, s)
    ensures Submittable(s.form) ==> |st.calls| >= 1 && st.calls[0] == CreateProduct(PayloadOf(s.form))
    ensures Submittable(s.form) && reply.Success? ==>
      && st.calls[1..] == [FetchProducts]
      && st.next.products == Fetched(refetch)
      && st.next.form == EmptyForm() && st.next.imageFile.None? && st.next.previewUrl.None?
      && !st.next.modalOpen
    ensures reply.Failure? ==> st.next == s && |st.calls| <= 1
  {
    if !Submittable(s.form) then Step(s, [])
    else
      var call := CreateProduct(PayloadOf(s.form));
      match reply
      case Success(_) =>
        var reloaded := Fetch(s, refetch);
        Step(reloaded.(form := EmptyForm(), imageFile := None, previewUrl := None, modalOpen := false), [call, FetchProducts])
      case Failure => Step(s, [call])
  }

  /** After a successful add the form is empty, so submitting again at once
      is stopped before any second create is sent. */
  lemma AddTwiceSendsOnce(s: State, reply: Outcome<()>, refetch: Outcome<Js.Value<Product>>,
                          reply2: Outcome<()>, refetch2: Outcome<Js.Value<Product>>)
    requires Submittable(s.form) && reply.Success?
    ensures var next := HandleAdd(s, reply, refetch).next;
      Inert(HandleAdd(next, reply2, refetch2), next)
  {
  }

  function KeyOf(p: Product): ProductId {
    p.id
  }

  /** `handleDelete`: asks first; a successful delete drops every product
      with that id and keeps the others in order; a failure keeps the list. */
  function HandleDelete(s: State, p: Product, confirmed: bool, reply: Outcome<()>): (st: Step<State, Call>)
    ensures !confirmed ==> Inert(st, s)
    ensures confirmed ==> st.calls == [DeleteProduct(p.id)]
    ensures confirmed && reply.Success? ==>
      && (forall x :: x in st.next.products <==> x in s.products && x.id != p.id)
      && Keyed.IsSubsequence(st.next.products, s.products)
      && st.next == s.(products := st.next.products)
    ensures reply.Failure? ==> st.next == s
  {
    if !confirmed then Step(s, [])
    else
      match reply
      case Success(_) => Step(s.(products := Keyed.RemoveKey(s.products, KeyOf, p.id)), [DeleteProduct(p.id)])
      case Failure => Step(s, [DeleteProduct(p.id)])
  }

  /** After a successful delete no row shows the deleted id, and every
      other product keeps its multiplicity. */
  lemma DeleteRemovesId(s: State, p: Product, q: Product)
    requires q.id != p.id
    ensures forall i :: 0 <= i < |HandleDelete(s, p, true, Success(())).next.products| ==>
      HandleDelete(s, p, true, Success(())).next.products[i].id != p.id
    ensures multiset(HandleDelete(s, p, true, Success(())).next.products)[q] == multiset(s.products)[q]
  {
  }
}

=== FILE: requests.dfy ===
/** Request triage (src/pages/Requests.jsx): an operator turns an inbound
    request into a customer account or a service ticket. Either confirmation
    marks the request `Processed`; a `New` request offers both create actions,
    any other shows the processed indicator.
 */
module Requests {
  import opened Wrappers
  import Keyed

  const NEW := "New"
  const PROCESSED := "Processed"

  datatype Request = Request(id: string, name: string, email: string, issue: string, date: string, status: string)

  datatype State = State(
    requests: seq<Request>,
    active: Option<Request>,   // the request whose modal is open
    showUserModal: bool,
    showTicketModal: bool)

  /** The page's seeded list: two requests, both `New`. */
  function Initial(): (s: State)
    ensures |s.requests| == 2
    ensures forall i :: 0 <= i < |s.requests| ==> s.requests[i].status == NEW
    ensures s.active.None? && !s.showUserModal && !s.showTicketModal
  {
    State(
      [ Request("REQ-101", "Rahul Verma", "rahul@gmail.com", "Internet not working", "Jan 18, 2026", NEW),
        Request("REQ-102", "Neha Sharma", "neha@gmail.com", "CCTV installation", "Jan 17, 2026", NEW) ],
      None, false, false)
  }

  /** What a request row renders in its action cell. */
  datatype RowActions = CreateButtons | ProcessedIndicator

  /** The create actions are offered exactly for `New` requests. */
  function ActionsFor(r: Request): (a: RowActions)
    ensures a == CreateButtons <==> r.status == NEW
    ensures a == ProcessedIndicator <==> r.status != NEW
  {
    if r.status == NEW then CreateButtons else ProcessedIndicator
  }

  function KeyOf(r: Request): string {
    r.id
  }

  function SetProcessed(r: Request): Request {
    r.(status := PROCESSED)
  }

  /** `markProcessed(id)`: every request with that id becomes `Processed`;
      the list keeps its length and order and the other requests are untouched. */
  function MarkProcessed(rs: seq<Request>, id: string): (r: seq<Request>)
    ensures |r| == |rs|
    ensures forall i :: 0 <= i < |rs| && rs[i].id == id ==> r[i] == rs[i].(status := PROCESSED)
    ensures forall i :: 0 <= i < |rs| && rs[i].id != id ==> r[i] == rs[i]
  {
    Keyed.MapWhere(rs, KeyOf, id, SetProcessed)
  }

  /** Marking the same request twice is marking it once. */
  lemma MarkProcessedIdempotent(rs: seq<Request>, id: string)
    ensures MarkProcessed(MarkProcessed(rs, id), id) == MarkProcessed(rs, id)
  {
    Keyed.MapWhereIdempotent(rs, KeyOf, id, SetProcessed);
  }

  /** "Confirm Create User": marks the active request and closes the user
      modal only. With no active request, reading its id throws and nothing
      changes. */
  function HandleCreateUser(s: State): (s': State)
    ensures s.active.None? ==> s' == s
    ensures s.active.Some? ==> s'.requests == MarkProcessed(s.requests, s.active.value.id)
    ensures s.active.Some? ==> !s'.showUserModal
    ensures s'.showTicketModal == s.showTicketModal && s'.active == s.active
  {
    match s.active
    case None => s
    case Some(a) => s.(requests := MarkProcessed(s.requests, a.id), showUserModal := false)
  }

  /** "Confirm Create Ticket": marks the active request and closes the ticket
      modal only. */
  function HandleCreateTicket(s: State): (s': State)
    ensures s.active.None? ==> s' == s
    ensures s.active.Some? ==> s'.requests == MarkProcessed(s.requests, s.active.value.id)
    ensures s.active.Some? ==> !s'.showTicketModal
    ensures s'.showUserModal == s.showUserModal && s'.active == s.active
  {
    match s.active
    case None => s
    case Some(a) => s.(requests := MarkProcessed(s.requests, a.id), showTicketModal := false)
  }

  /** After either confirmation, every row of the confirmed request shows the
      processed indicator instead of the create actions. */
  lemma ConfirmShowsIndicator(s: State)
    requires s.active.Some?
    ensures forall i :: 0 <= i < |s.requests| && s.requests[i].id == s.active.value.id ==>
      ActionsFor(HandleCreateUser(s).requests[i]) == ProcessedIndicator
      && ActionsFor(HandleCreateTicket(s).requests[i]) == ProcessedIndicator
  {
  }

  /** Every user action on the page. */
  datatype Event =
    | OpenCreateUser(req: Request)
    | OpenCreateTicket(req: Request)
    | CloseUserModal
    | CloseTicketModal
    | ConfirmCreateUser
    | ConfirmCreateTicket

  function Apply(s: State, e: Event): State {
    match e
    case OpenCreateUser(req) => s.(active := Some(req), showUserModal := true)
    case OpenCreateTicket(req) => s.(active := Some(req), showTicketModal := true)
    case CloseUserModal => s.(showUserModal := false)
    case CloseTicketModal => s.(showTicketModal := false)
    case ConfirmCreateUser => HandleCreateUser(s)
    case ConfirmCreateTicket => HandleCreateTicket(s)
  }

  function Run(s: State, es: seq<Event>): State
    decreases |es|
  {
    if |es| == 0 then s else Run(Apply(s, es[0]), es[1..])
  }

  /** One event leaves each position either as it was or marked processed. */
  lemma ApplyOnlyProcesses(s: State, e: Event)
    ensures |Apply(s, e).requests| == |s.requests|
    ensures forall i :: 0 <= i < |s.requests| ==>
      Apply(s, e).requests[i] == s.requests[i] || Apply(s, e).requests[i] == SetProcessed(s.requests[i])
  {
  }

  /** Over any sequence of events the list keeps its shape and every request
      either stays as it was or becomes `Processed`; nothing writes `New`, so
      a request never returns from `Processed` to `New`. */
  lemma {:induction false} RunOnlyProcesses(s: State, es: seq<Event>)
    ensures |Run(s, es).requests| == |s.requests|
    ensures forall i :: 0 <= i < |s.requests| ==>
      Run(s, es).requests[i] == s.requests[i] || Run(s, es).requests[i] == SetProcessed(s.requests[i])
    ensures forall i :: 0 <= i < |s.requests| && Run(s, es).requests[i].status == NEW ==>
      s.requests[i].status == NEW
    decreases |es|
  {
    if |es| > 0 {
      var s1 := Apply(s, es[0]);
      ApplyOnlyProcesses(s, es[0]);
      RunOnlyProcesses(s1, es[1..]);
      forall i | 0 <= i < |s.requests|
        ensures Run(s, es).requests[i] == s.requests[i] || Run(s, es).requests[i] == SetProcessed(s.requests[i])
      {
        assert SetProcessed(SetProcessed(s.requests[i])) == SetProcessed(s.requests[i]);
      }
    }
  }
}

=== FILE: staff_accounts.dfy ===
/** Staff accounts screen backed by the server (src/pages/Staff/StaffManagement.jsx):
    list, create with a password check, delete after confirmation.
 */
module StaffAccounts {
  import opened Wrappers
  import Keyed
  import Text

  const MIN_PASSWORD_LENGTH := 6
  const DEFAULT_ROLE := "staff"

  /** A staff record as the page reads it; the password is write-only. */
  datatype Staff = Staff(id: string, name: string, email: string, mobile: string, role: string)

  datatype Form = Form(name: string, email: string, mobile: string, password: string, role: string)

  datatype State = State(
    users: seq<Staff>,
    showModal: bool,
    editMode: bool,
    selected: Option<Staff>,
    form: Form)

  /** The reply to a create: the `{ message, staff }` envelope, or the bare record. */
  datatype Created = Enveloped(message: string, staff: Staff) | Bare(record: Staff)

  /** The server calls this page issues. */
  datatype Call = CreateStaff(payload: Form) | DeleteStaff(id: string)

  function EmptyForm(): (f: Form)
    ensures f.name == "" && f.email == "" && f.mobile == "" && f.password == ""
    ensures f.role == DEFAULT_ROLE
  {
    Form("", "", "", "", DEFAULT_ROLE)
  }

  function KeyOf(u: Staff): string {
    u.id
  }

  /** `response.staff || response`: the record the create added. */
  function NewUserOf(resp: Created): Staff {
    match resp
    case Enveloped(_, staff) => staff
    case Bare(record) => record
  }

  /** The create guard: a password whose `.length` (UTF-16 code units) is
      below six is refused. */
  predicate PasswordAccepted(password: string) {
    Text.Utf16Length(password) >= MIN_PASSWORD_LENGTH
  }

  /** The guard counts as JavaScript does: three emoji make an acceptable
      password, and any five characters of the basic plane do not. */
  lemma PasswordMeasuredInCodeUnits(p: string)
    requires |p| == 5 && forall i :: 0 <= i < |p| ==> p[i] as int <= 0xFFFF
    ensures PasswordAccepted("\U{1F600}\U{1F600}\U{1F600}")
    ensures !PasswordAccepted(p)
  {
    Text.Utf16LengthOfAstral();
  }

  /** `loadStaff`: the fetched list replaces the cache; a failure keeps it. */
  function Load(s: State, reply: Outcome<seq<Staff>>): (s': State)
    ensures reply.Success? ==> s' == s.(users := reply.value)
    ensures reply.Failure? ==> s' == s
  {
    match reply
    case Success(list) => s.(users := list)
    case Failure => s
  }

  /** `resetForm`: empty fields with role `staff`, edit mode off, nothing selected. */
  function ResetForm(s: State): (s': State)
    ensures s'.form == EmptyForm() && !s'.editMode && s'.selected.None?
    ensures s'.users == s.users && s'.showModal == s.showModal
  {
    s.(form := EmptyForm(), editMode := false, selected := None)
  }

  /** "Invite Staff": a fresh form in an open modal. */
  function OpenInvite(s: State): (s': State)
    ensures s'.showModal && s'.form == EmptyForm() && s'.users == s.users
  {
    ResetForm(s).(showModal := true)
  }

  /** `handleCreateUser`. Only the password is checked: a short one issues no
      call and changes nothing, whatever name, email and mobile hold. On
      success the returned record goes first, the old list follows unchanged,
      and the form is reset; on failure the state is kept for a retry. */
  function HandleCreate(s: State, reply: Outcome<Created>): (st: Step<State, Call>)
    ensures st.calls == [] <==> !PasswordAccepted(s.form.password)
    ensures !PasswordAccepted(s.form.password) ==> Inert(st, s)
    ensures PasswordAccepted(s.form.password) ==> st.calls == [CreateStaff(s.form)]
    ensures PasswordAccepted(s.form.password) && reply.Success? ==>
      && st.next.users == [NewUserOf(reply.value)] + s.users
      && st.next.form == EmptyForm()
      && !st.next.showModal && !st.next.editMode && st.next.selected.None?
    ensures reply.Failure? ==> st.next == s
  {
    if !PasswordAccepted(s.form.password) then Step(s, [])
    else
      match reply
      case Success(resp) =>
        var added := s.(users := [NewUserOf(resp)] + s.users, showModal := false);
        Step(ResetForm(added), [CreateStaff(s.form)])
      case Failure => Step(s, [CreateStaff(s.form)])
  }

  /** `handleDeleteUser`. Without confirmation nothing is called or changed; a
      successful delete drops exactly the entries with the user's id, keeping
      the others in order; a failed one keeps the list. */
  function HandleDelete(s: State, user: Staff, confirmed: bool, reply: Outcome<()>): (st: Step<State, Call>)
    ensures !confirmed ==> Inert(st, s)
    ensures confirmed ==> st.calls == [DeleteStaff(user.id)]
    ensures confirmed && reply.Success? ==>
      && (forall u :: u in st.next.users <==> u in s.users && u.id != user.id)
      && Keyed.IsSubsequence(st.next.users, s.users)
      && st.next == s.(users := st.next.users)
    ensures reply.Failure? ==> st.next == s
  {
    if !confirmed then Step(s, [])
    else
      match reply
      case Success(_) => Step(s.(users := Keyed.RemoveKey(s.users, KeyOf, user.id)), [DeleteStaff(user.id)])
      case Failure => Step(s, [DeleteStaff(user.id)])
  }

  /** A delete leaves the entries of every other id with their multiplicity. */
  lemma DeleteKeepsOthers(s: State, user: Staff, u: Staff)
    requires u.id != user.id
    ensures multiset(HandleDelete(s, user, true, Success(())).next.users)[u] == multiset(s.users)[u]
  {
  }

  /** Creating a staff member under a fresh id and then deleting that member
      gives back the list the page started from. */
  lemma CreateThenDeleteRestores(s: State, resp: Created)
    requires PasswordAccepted(s.form.password)
    requires forall i :: 0 <= i < |s.users| ==> s.users[i].id != NewUserOf(resp).id
    ensures HandleDelete(HandleCreate(s, Success(resp)).next, NewUserOf(resp), true, Success(())).next.users == s.users
  {
    Keyed.RemoveKeyOfPrepended(NewUserOf(resp), s.users, KeyOf);
  }
}

=== FILE: staff_tickets.dfy ===
/** A staff member's own tickets (src/pages/Staff/StaffTickets.jsx): a
    defensively normalised list, an inline status selector whose every change
    is sent at once, a status badge and the two most recent history entries.
 */
module StaffTickets {
  import opened Wrappers
  import Js
  import Text
  import Tickets

  const STATUS_OPTIONS: seq<string> := ["Pending", "In Progress", "Completed", "Closed"]
  const DEFAULT_STATUS := "Pending"

  datatype HistoryEntry = HistoryEntry(status: string, actor: string, at: string)

  /** A ticket as this view reads it; `status` and `history` may be absent. */
  datatype AssignedTicket = AssignedTicket(
    id: string,
    issue: string,
    ticketNumber: string,
    status: Option<string>,
    history: Option<seq<HistoryEntry>>)

  datatype Call = UpdateStatus(ticketId: string, payload: Tickets.StatusPayload) | FetchAssigned(staffId: string)

  datatype State = State(staffId: string, tickets: seq<AssignedTicket>)

  /** `loadTickets`: `response.data || response || []`, then anything that is
      not an array becomes `[]`; a rejected call (or a null response, whose
      `data` read throws) also empties the list. */
  function Loaded(reply: Outcome<Js.Value<AssignedTicket>>): (r: seq<AssignedTicket>)
    ensures reply.Failure? ==> r == []
    ensures reply.Success? && reply.value.Nullish() ==> r == []
    ensures reply.Success? && reply.value.Obj? && "data" in reply.value.fields && reply.value.fields["data"].Arr? ==>
      r == reply.value.fields["data"].items
    ensures reply.Success? && reply.value.Arr? ==> r == reply.value.items
    ensures r == [] || (reply.Success? && (reply.value == Js.Arr(r) || Js.Member(reply.value, "data") == Some(Js.Arr(r))))
  {
    match reply
    case Failure => []
    case Success(response) =>
      match Js.Member(response, "data")
      case None => []
      case Some(data) => Js.ArrayOrEmpty(Js.OrEmpty(Js.Or(data, response)))
  }

  /** A data field that is truthy but not an array (an object, a string) never
      reaches the list. */
  lemma LoadedRejectsNonArrayData(fields: map<string, Js.Value<AssignedTicket>>)
    requires "data" in fields && fields["data"].Truthy() && !fields["data"].Arr?
    ensures Loaded(Success(Js.Obj(fields))) == []
  {
  }

  function Load(s: State, reply: Outcome<Js.Value<AssignedTicket>>): (s': State)
    ensures s'.staffId == s.staffId && s'.tickets == Loaded(reply)
  {
    s.(tickets := Loaded(reply))
  }

  /** The selector shows the ticket's status, or `Pending` when it is absent or empty. */
  function SelectValue(t: AssignedTicket): (v: string)
    ensures t.status.Some? && t.status.value != "" ==> v == t.status.value
    ensures t.status.None? || t.status.value == "" ==> v == DEFAULT_STATUS
    ensures v != ""
  {
    match t.status
    case Some(st) => if st != "" then st else DEFAULT_STATUS
    case None => DEFAULT_STATUS
  }

  /** A ticket whose status is one of the options shows that option; one with
      no status shows the first option. */
  lemma SelectShowsOption(t: AssignedTicket)
    ensures t.status.Some? && t.status.value in STATUS_OPTIONS ==> SelectValue(t) == t.status.value
    ensures t.status.None? ==> SelectValue(t) == STATUS_OPTIONS[0]
  {
  }

  datatype Badge = Green | Yellow | Grey

  /** The badge colour, read from the raw status (no `Pending` default here). */
  function BadgeFor(status: Option<string>): (b: Badge)
    ensures b == Green <==> status == Some("Completed") || status == Some("Closed")
    ensures b == Yellow <==> status == Some("In Progress")
    ensures b == Grey <==> !(status in {Some("Completed"), Some("Closed"), Some("In Progress")})
  {
    match status
    case Some(st) =>
      if st == "Completed" || st == "Closed" then Green
      else if st == "In Progress" then Yellow
      else Grey
    case None => Grey
  }

  /** Over the selector's vocabulary, the badge is grey, yellow, green, green. */
  lemma BadgeOfOptions()
    ensures BadgeFor(Some(STATUS_OPTIONS[0])) == Grey
    ensures BadgeFor(Some(STATUS_OPTIONS[1])) == Yellow
    ensures BadgeFor(Some(STATUS_OPTIONS[2])) == Green && BadgeFor(Some(STATUS_OPTIONS[3])) == Green
  {
  }

  /** "Recent Activity": shown only for a non-empty history, and then its last
      two entries at most, in stored order. */
  function RecentActivity(t: AssignedTicket): (r: Option<seq<HistoryEntry>>)
    ensures r.Some? <==> t.history.Some? && |t.history.value| > 0
    ensures r.Some? ==>
      var h := t.history.value;
      && |r.value| == Text.Min(2, |h|)
      && r.value == h[|h| - |r.value|..]
  {
    match t.history
    case Some(h) => if |h| > 0 then Some(Text.SliceFromEnd(h, 2)) else None
    case None => None
  }

  /** `handleStatusChange`: the body carries only the new status; success
      reloads the staff member's list, and nothing is patched locally. */
  function HandleStatusChange(s: State, ticketId: string, newStatus: string, reply: Outcome<()>): (st: Step<State, Call>)
    ensures st.next == s
    ensures |st.calls| >= 1 && st.calls[0] == UpdateStatus(ticketId, Tickets.StatusPayload(newStatus, None))
    ensures st.calls[1..] == (if reply.Success? then [FetchAssigned(s.staffId)] else [])
  {
    var call := UpdateStatus(ticketId, Tickets.StatusPayload(newStatus, None));
    Step(s, if reply.Success? then [call, FetchAssigned(s.staffId)] else [call])
  }

  /** A successful status change asks for this staff member's list again, and
      what the page shows next is exactly that reload: when the server
      reports the ticket with the new status, the selector shows it. */
  lemma StatusChangeShownAfterReload(s: State, ticketId: string, newStatus: string, list: seq<AssignedTicket>)
    requires newStatus != ""
    ensures var st := HandleStatusChange(s, ticketId, newStatus, Success(()));
      && st.calls[1..] == [FetchAssigned(s.staffId)]
      && Load(st.next, Success(Js.Arr(list))).tickets == list
      && forall t :: t in Load(st.next, Success(Js.Arr(list))).tickets && t.id == ticketId && t.status == Some(newStatus) ==>
           SelectValue(t) == newStatus
  {
  }
}

=== FILE: text.dfy ===
/** The string built-ins the page handlers lean on, written out over `string`.

    A Dafny `string` is a sequence of Unicode scalar values, while JavaScript
    measures strings in UTF-16 code units, where a character above U+FFFF
    (an emoji, say) takes two. `Utf16Length` gives JavaScript's `.length`.

    - `ToLower` is `String.prototype.toLowerCase` restricted to ASCII letters;
    - `Includes` is `String.prototype.includes`;
    - `Trim` is `String.prototype.trim` with ECMAScript's white-space and
      line-terminator set;
    - `SliceFromEnd` is `Array.prototype.slice(-n)` / `String.prototype.slice(-n)`;
    - `DecimalText` is `String(n)` for an integral number;
    - `ParseInt` is the global `parseInt(s)` called without a radix.
 */
module Text {
  import opened Wrappers

  // ---------------------------------------------------------------- case

  predicate IsAsciiUpper(c: char) {
    'A' <= c <= 'Z'
  }

  /** Lower-cases one ASCII letter; every other character is kept. */
  function LowerChar(c: char): (d: char)
    ensures !IsAsciiUpper(d)
    ensures !IsAsciiUpper(c) ==> d == c
  {
    if IsAsciiUpper(c) then (c as int + 32) as char else c
  }

  function ToLower(s: string): (r: string)
    ensures |r| == |s|
    ensures forall i :: 0 <= i < |s| ==> r[i] == LowerChar(s[i])
  {
    seq(|s|, i requires 0 <= i < |s| => LowerChar(s[i]))
  }

  /** Lower-casing twice is lower-casing once, so a search that lower-cases
      both the field and the term is insensitive to an already lower-case term. */
  lemma ToLowerIdempotent(s: string)
    ensures ToLower(ToLower(s)) == ToLower(s)
  {
  }

  // ----------------------------------------------------------- substring

  predicate IsPrefix(p: string, s: string) {
    |p| <= |s| && s[..|p|] == p
  }

  /** `needle` sits in `haystack` starting at index `i`. */
  predicate OccursAt(haystack: string, needle: string, i: int) {
    0 <= i && i + |needle| <= |haystack| && haystack[i..i + |needle|] == needle
  }

  /** `haystack.includes(needle)`, searched from the left. */
  predicate Includes(haystack: string, needle: string)
    decreases |haystack|
  {
    IsPrefix(needle, haystack) || (|haystack| > 0 && Includes(haystack[1..], needle))
  }

  /** The left-to-right search finds `needle` exactly when it occurs somewhere. */
  lemma {:induction false} IncludesIffOccurs(haystack: string, needle: string)
    ensures Includes(haystack, needle) <==> exists i :: OccursAt(haystack, needle, i)
    decreases |haystack|
  {
    assert OccursAt(haystack, needle, 0) <==> IsPrefix(needle, haystack);
    if |haystack| > 0 {
      var tail := haystack[1..];
      IncludesIffOccurs(tail, needle);
      forall i | OccursAt(tail, needle, i)
        ensures OccursAt(haystack, needle, i + 1)
      {
        assert tail[i..i + |needle|] == haystack[i + 1..i + 1 + |needle|];
      }
      forall i | OccursAt(haystack, needle, i) && i > 0
        ensures OccursAt(tail, needle, i - 1)
      {
        assert tail[i - 1..i - 1 + |needle|] == haystack[i..i + |needle|];
      }
    }
  }

  /** The empty term is found in every string, as `"".includes("")` is true. */
  lemma IncludesEmpty(s: string)
    ensures Includes(s, "")
  {
  }

  // ---------------------------------------------------------------- trim

  /** ECMAScript WhiteSpace and LineTerminator code points (what `trim` removes). */
  predicate IsJsSpace(c: char) {
    || c == '\t' || c == '\n' || c == '\U{000B}' || c == '\U{000C}' || c == '\r'
    || c == ' ' || c == '\U{00A0}' || c == '\U{1680}'
    || ('\U{2000}' <= c <= '\U{200A}')
    || c == '\U{2028}' || c == '\U{2029}' || c == '\U{202F}' || c == '\U{205F}'
    || c == '\U{3000}' || c == '\U{FEFF}'
  }

  /** Drops the leading white space: the result is the suffix of `s` that
      starts at its first non-space character. */
  function TrimStart(s: string): (r: string)
    ensures |r| <= |s| && r == s[|s| - |r|..]
    ensures forall i :: 0 <= i < |s| - |r| ==> IsJsSpace(s[i])
    ensures |r| > 0 ==> !IsJsSpace(r[0])
  {
    if |s| > 0 && IsJsSpace(s[0]) then TrimStart(s[1..]) else s
  }

  /** Drops the trailing white space: the result is the prefix of `s` that
      ends at its last non-space character. */
  function TrimEnd(s: string): (r: string)
    ensures |r| <= |s| && r == s[..|r|]
    ensures forall i :: |r| <= i < |s| ==> IsJsSpace(s[i])
    ensures |r| > 0 ==> !IsJsSpace(r[|r| - 1])
  {
    if |s| > 0 && IsJsSpace(s[|s| - 1]) then TrimEnd(s[..|s| - 1]) else s
  }

  /** `s.trim()`: white space removed on both sides. */
  function Trim(s: string): (r: string)
    ensures |r| <= |s|
    ensures |r| > 0 ==> !IsJsSpace(r[0]) && !IsJsSpace(r[|r| - 1])
  {
    TrimEnd(TrimStart(s))
  }

  /** What `trim` leaves is the infix of `s` that only white space surrounds. */
  lemma TrimIsInfix(s: string)
    ensures exists a :: OccursAt(s, Trim(s), a) && SpaceOutside(s, a, a + |Trim(s)|)
  {
    TrimLocated(s, TrimStart(s), Trim(s));
  }

  /** Every character of `s` before `a` and from `b` on is white space. */
  predicate SpaceOutside(s: string, a: int, b: int) {
    && (forall i :: 0 <= i < a && i < |s| ==> IsJsSpace(s[i]))
    && (forall i :: b <= i < |s| && 0 <= i ==> IsJsSpace(s[i]))
  }

  lemma TrimLocated(s: string, t: string, r: string)
    requires |t| <= |s| && t == s[|s| - |t|..]
    requires |r| <= |t| && r == t[..|r|]
    requires forall i :: 0 <= i < |s| - |t| ==> IsJsSpace(s[i])
    requires forall i :: |r| <= i < |t| ==> IsJsSpace(t[i])
    ensures OccursAt(s, r, |s| - |t|) && SpaceOutside(s, |s| - |t|, |s| - |t| + |r|)
  {
    var a := |s| - |t|;
    var b := a + |r|;
    assert s[a..b] == t[..|r|];
    forall i | b <= i < |s|
      ensures IsJsSpace(s[i])
    {
      assert s[i] == t[i - a];
    }
  }

  /** A string without surrounding white space is its own trim. */
  lemma TrimOfTrimmed(s: string)
    requires |s| > 0 ==> !IsJsSpace(s[0]) && !IsJsSpace(s[|s| - 1])
    ensures Trim(s) == s
  {
  }

  // --------------------------------------------------------------- slice

  function Min(a: int, b: int): int {
    if a <= b then a else b
  }

  /** `s.slice(-n)`: the last `n` elements (all of them when there are fewer).
      A negative zero start is a zero start, so `slice(-0)` copies the whole input. */
  function SliceFromEnd<T>(s: seq<T>, n: nat): (r: seq<T>)
    ensures |r| <= |s|
    ensures r == s[|s| - |r|..]
    ensures n > 0 ==> |r| == Min(n, |s|)
    ensures n == 0 ==> r == s
  {
    if n == 0 || n >= |s| then s else s[|s| - n..]
  }

  // ------------------------------------------------------------- numbers

  predicate IsDigit(c: char) {
    '0' <= c <= '9'
  }

  function DigitChar(d: int): (c: char)
    requires 0 <= d < 10
    ensures IsDigit(c)
  {
    ('0' as int + d) as char
  }

  /** The value of `c` as a digit of base `radix` (10 or 16), if it is one. */
  function DigitValue(c: char, radix: int): (r: Option<int>)
    ensures r.Some? ==> 0 <= r.value < radix
  {
    var v :=
      if '0' <= c <= '9' then c as int - '0' as int
      else if 'a' <= c <= 'f' then c as int - 'a' as int + 10
      else if 'A' <= c <= 'F' then c as int - 'A' as int + 10
      else radix;
    if v < radix then Some(v) else None
  }

  predicate AllDigits(s: string, radix: int) {
    forall i :: 0 <= i < |s| ==> DigitValue(s[i], radix).Some?
  }

  /** Decimal text of a natural number, most significant digit first. */
  function NatText(n: nat): (r: string)
    ensures |r| > 0
    ensures forall i :: 0 <= i < |r| ==> IsDigit(r[i])
    ensures r[0] == '0' <==> n == 0
    ensures n == 0 ==> r == "0"
  {
    if n < 10 then [DigitChar(n)] else NatText(n / 10) + [DigitChar(n % 10)]
  }

  /** `String(n)` for an integral `n`: a minus sign for negatives, then the digits. */
  function DecimalText(n: int): (r: string)
    ensures |r| > 0
    ensures n < 0 <==> r[0] == '-'
  {
    if n < 0 then "-" + NatText(-n) else NatText(n)
  }

  /** The longest prefix of `s` made of base-`radix` digits. */
  function DigitPrefix(s: string, radix: int): (r: string)
    ensures IsPrefix(r, s)
    ensures AllDigits(r, radix)
    ensures |r| < |s| ==> DigitValue(s[|r|], radix).None?
  {
    if |s| > 0 && DigitValue(s[0], radix).Some? then [s[0]] + DigitPrefix(s[1..], radix) else []
  }

  /** The number a digit string denotes in base `radix`. */
  function ValueOf(ds: string, radix: int): int
    requires AllDigits(ds, radix)
  {
    if |ds| == 0 then 0
    else ValueOf(ds[..|ds| - 1], radix) * radix + DigitValue(ds[|ds| - 1], radix).value
  }

  /** Global `parseInt(s)` with no radix: skip leading white space, take an
      optional sign, switch to base 16 after `0x`/`0X`, then read the longest
      run of digits; `None` stands for `NaN` (no digit at all). */
  function ParseInt(s: string): (r: Option<int>)
    ensures r.None? <==> |DigitPrefix(UnsignedPart(s).1, UnsignedPart(s).0)| == 0
  {
    var (radix, body) := UnsignedPart(s);
    var digits := DigitPrefix(body, radix);
    if |digits| == 0 then None
    else
      var t := TrimStart(s);
      var magnitude := ValueOf(digits, radix);
      Some(if |t| > 0 && t[0] == '-' then -magnitude else magnitude)
  }

  /** The radix `parseInt` settles on and the text after white space, sign
      and any `0x` prefix. */
  function UnsignedPart(s: string): (int, string) {
    var t := TrimStart(s);
    var u := if |t| > 0 && (t[0] == '-' || t[0] == '+') then t[1..] else t;
    if |u| >= 2 && u[0] == '0' && (u[1] == 'x' || u[1] == 'X') then (16, u[2..]) else (10, u)
  }

  lemma DigitCharValue(d: int)
    requires 0 <= d < 10
    ensures DigitValue(DigitChar(d), 10) == Some(d)
  {
  }

  lemma {:induction false} DigitPrefixOfDigits(s: string, radix: int)
    requires AllDigits(s, radix)
    ensures DigitPrefix(s, radix) == s
    decreases |s|
  {
    if |s| > 0 {
      DigitPrefixOfDigits(s[1..], radix);
    }
  }

  lemma {:induction false} ValueOfNatText(n: nat)
    ensures AllDigits(NatText(n), 10)
    ensures ValueOf(NatText(n), 10) == n
    decreases n
  {
    var r := NatText(n);
    if n < 10 {
      DigitCharValue(n);
    } else {
      ValueOfNatText(n / 10);
      DigitCharValue(n % 10);
      assert r[..|r| - 1] == NatText(n / 10);
    }
  }

  /** The decimal text of `n` has no leading white space, and `parseInt`
      reads it in base 10 from the digits of `|n|`. */
  lemma DecimalTextParts(n: int)
    ensures TrimStart(DecimalText(n)) == DecimalText(n)
    ensures UnsignedPart(DecimalText(n)) == (10, NatText(if n < 0 then -n else n))
  {
    var text := DecimalText(n);
    var digits := NatText(if n < 0 then -n else n);
    assert !IsJsSpace(text[0]);
    if n < 0 {
      assert text[1..] == digits;
    }
  }

  /** Reading back the decimal text of any integer gives that integer:
      `parseInt(String(n)) === n`. */
  lemma ParseIntOfDecimalText(n: int)
    ensures ParseInt(DecimalText(n)) == Some(n)
  {
    var m: nat := if n < 0 then -n else n;
    DecimalTextParts(n);
    ValueOfNatText(m);
    DigitPrefixOfDigits(NatText(m), 10);
  }

  /** A string without any decimal digit parses to `NaN`, whatever white
      space, sign or other text it holds: no `0x` prefix can start without a
      `0`, so it is read in base 10 and its first unread character is no digit. */
  lemma ParseIntNoDigits(s: string)
    requires forall i :: 0 <= i < |s| ==> !IsDigit(s[i])
    ensures ParseInt(s).None?
  {
    var t := TrimStart(s);
    assert forall i :: 0 <= i < |t| ==> t[i] == s[|s| - |t| + i];
    var u := if |t| > 0 && (t[0] == '-' || t[0] == '+') then t[1..] else t;
    assert forall i :: 0 <= i < |u| ==> !IsDigit(u[i]) by {
      forall i | 0 <= i < |u|
        ensures !IsDigit(u[i])
      {
        if |t| > 0 && (t[0] == '-' || t[0] == '+') {
          assert u[i] == t[i + 1];
        }
      }
    }
    assert UnsignedPart(s) == (10, u);
    if |u| > 0 {
      assert DigitValue(u[0], 10).None?;
    }
  }

  // -------------------------------------------------------------- length

  /** The number of UTF-16 code units of `c`: two above U+FFFF, one otherwise. */
  function Utf16Units(c: char): (n: nat)
    ensures n == 1 || n == 2
    ensures n == 2 <==> c as int > 0xFFFF
  {
    if c as int > 0xFFFF then 2 else 1
  }

  /** `s.length` as JavaScript reports it. */
  function Utf16Length(s: string): (n: nat)
    ensures |s| <= n <= 2 * |s|
    ensures (forall i :: 0 <= i < |s| ==> s[i] as int <= 0xFFFF) ==> n == |s|
  {
    if |s| == 0 then 0 else Utf16Units(s[0]) + Utf16Length(s[1..])
  }

  /** Three characters of the supplementary planes measure six code units. */
  lemma Utf16LengthOfAstral()
    ensures Utf16Length("\U{1F600}\U{1F600}\U{1F600}") == 6
    ensures |"\U{1F600}\U{1F600}\U{1F600}"| == 3
  {
    var s := "\U{1F600}\U{1F600}\U{1F600}";
    assert s[1..][1..][1..] == [];
  }
}

=== FILE: tickets.dfy ===
/** Ticket management (src/pages/Tickets.jsx): list, create, delete after
    confirmation, assign to a staff member, change status, and a read-only
    edit view. Creates, assignments and status changes re-fetch the list
    instead of patching it.
 */
module Tickets {
  import opened Wrappers
  import Keyed

  /** The actor the admin screen writes into every status change. */
  const SYSTEM_ACTOR := "SYSTEM"

  datatype Ticket = Ticket(
    id: string,
    ticketNumber: string,
    customerName: string,
    phone: string,
    address: string,
    productType: string,
    issue: string,
    status: string,
    createdAt: string)

  /** The five free-text fields shared by the create and the edit modal. */
  datatype Form = Form(customerName: string, phone: string, address: string, productType: string, issue: string)

  /** The five inputs of the shared create/edit modal. */
  datatype Field = CustomerName | Phone | Address | ProductType | Issue

  /** Body of a status update: the new status and, optionally, who made it. */
  datatype StatusPayload = StatusPayload(status: string, staffId: Option<string>)

  datatype Call =
    | FetchTickets
    | CreateTicket(form: Form)
    | DeleteTicket(id: string)
    | AssignTicket(ticketId: string, staffId: string)
    | UpdateStatus(ticketId: string, payload: StatusPayload)

  datatype State = State(
    tickets: seq<Ticket>,
    showAssign: bool,
    assigning: Option<Ticket>,
    selectedStaff: string,
    showCreate: bool,
    showEdit: bool,
    editing: Option<Ticket>,
    form: Form)

  function EmptyForm(): (f: Form)
    ensures f.customerName == "" && f.phone == "" && f.address == "" && f.productType == "" && f.issue == ""
  {
    Form("", "", "", "", "")
  }

  function KeyOf(t: Ticket): string {
    t.id
  }

  /** `fetchTickets`: the fetched list replaces the cache; a failure keeps it. */
  function Load(s: State, reply: Outcome<seq<Ticket>>): (s': State)
    ensures reply.Success? ==> s' == s.(tickets := reply.value)
    ensures reply.Failure? ==> s' == s
  {
    match reply
    case Success(list) => s.(tickets := list)
    case Failure => s
  }

  /** `handleCreate`: no field is checked, so every form is sent. Success
      closes the modal, clears all five fields and re-fetches; failure keeps
      modal and form. The cached list is not touched either way. */
  function HandleCreate(s: State, reply: Outcome<()>): (st: Step<State, Call>)
    ensures |st.calls| >= 1 && st.calls[0] == CreateTicket(s.form)
    ensures st.next.tickets == s.tickets
    ensures reply.Success? ==>
      && st.next == s.(showCreate := false, form := EmptyForm())
      && st.calls == [CreateTicket(s.form), FetchTickets]
    ensures reply.Failure? ==> st.next == s && st.calls == [CreateTicket(s.form)]
  {
    match reply
    case Success(_) => Step(s.(showCreate := false, form := EmptyForm()), [CreateTicket(s.form), FetchTickets])
    case Failure => Step(s, [CreateTicket(s.form)])
  }

  /** `handleDelete`: nothing without confirmation; a successful delete drops
      exactly the tickets with that id and keeps every other one, as often
      as it occurs and in order. */
  function HandleDelete(s: State, id: string, confirmed: bool, reply: Outcome<()>): (st: Step<State, Call>)
    ensures !confirmed ==> Inert(st, s)
    ensures confirmed ==> st.calls == [DeleteTicket(id)]
    ensures confirmed && reply.Success? ==>
      && (forall t :: t in st.next.tickets <==> t in s.tickets && t.id != id)
      && (forall t: Ticket :: t.id != id ==> multiset(st.next.tickets)[t] == multiset(s.tickets)[t])
      && Keyed.IsSubsequence(st.next.tickets, s.tickets)
      && st.next == s.(tickets := st.next.tickets)
    ensures reply.Failure? ==> st.next == s
  {
    if !confirmed then Step(s, [])
    else
      match reply
      case Success(_) => Step(s.(tickets := Keyed.RemoveKey(s.tickets, KeyOf, id)), [DeleteTicket(id)])
      case Failure => Step(s, [DeleteTicket(id)])
  }

  /** The Assign button of a row opens the modal for that ticket. */
  function OpenAssign(s: State, t: Ticket): (s': State)
    ensures s'.showAssign && s'.assigning == Some(t) && s'.selectedStaff == s.selectedStaff
  {
    s.(assigning := Some(t), showAssign := true)
  }

  /** `handleAssignTicket`. An empty staff selection issues no call and
      changes nothing (as does a missing ticket, whose id read throws inside
      the handler's `try`). Success closes the modal, clears the ticket and
      the selection, and re-fetches; failure leaves the modal open. */
  function HandleAssign(s: State, reply: Outcome<()>): (st: Step<State, Call>)
    ensures s.selectedStaff == "" || s.assigning.None? ==> Inert(st, s)
    ensures s.selectedStaff != "" && s.assigning.Some? ==>
      && |st.calls| >= 1
      && st.calls[0] == AssignTicket(s.assigning.value.id, s.selectedStaff)
      && st.next.tickets == s.tickets
    ensures s.selectedStaff != "" && s.assigning.Some? && reply.Success? ==>
      && !st.next.showAssign && st.next.assigning.None? && st.next.selectedStaff == ""
      && st.calls[1..] == [FetchTickets]
    ensures reply.Failure? ==> st.next == s
  {
    if s.selectedStaff == "" then Step(s, [])
    else
      match s.assigning
      case None => Step(s, [])
      case Some(t) =>
        var call := AssignTicket(t.id, s.selectedStaff);
        match reply
        case Success(_) => Step(s.(showAssign := false, assigning := None, selectedStaff := ""), [call, FetchTickets])
        case Failure => Step(s, [call])
  }

  /** `handleStatusChange`: sends exactly `{ status, staff_id: "SYSTEM" }` for
      the ticket, re-fetches on success, and changes no local state. */
  function HandleStatusChange(s: State, ticketId: string, status: string, reply: Outcome<()>): (st: Step<State, Call>)
    ensures st.next == s
    ensures |st.calls| >= 1
    ensures st.calls[0].UpdateStatus? && st.calls[0].ticketId == ticketId
    ensures st.calls[0].payload.status == status && st.calls[0].payload.staffId == Some(SYSTEM_ACTOR)
    ensures st.calls[1..] == (if reply.Success? then [FetchTickets] else [])
  {
    var call := UpdateStatus(ticketId, StatusPayload(status, Some(SYSTEM_ACTOR)));
    Step(s, if reply.Success? then [call, FetchTickets] else [call])
  }

  /** `openEditModal`: the form receives exactly the ticket's five fields. */
  function OpenEdit(s: State, t: Ticket): (s': State)
    ensures s'.form.customerName == t.customerName && s'.form.phone == t.phone
    ensures s'.form.address == t.address && s'.form.productType == t.productType
    ensures s'.form.issue == t.issue
    ensures s'.showEdit && s'.editing == Some(t) && s'.tickets == s.tickets
  {
    s.(editing := Some(t), form := Form(t.customerName, t.phone, t.address, t.productType, t.issue), showEdit := true)
  }

  /** Saving the edit modal only closes it. */
  function SaveEdit(s: State): (s': State)
    ensures !s'.showEdit
    ensures s'.tickets == s.tickets && s'.form == s.form && s'.editing == s.editing
  {
    s.(showEdit := false)
  }

  /** Opening a ticket for edit and saving at once leaves the ticket list as
      it was: the edit view never writes a ticket. */
  lemma EditRoundTripKeepsTickets(s: State, t: Ticket)
    ensures SaveEdit(OpenEdit(s, t)).tickets == s.tickets
    ensures SaveEdit(OpenEdit(s, t)).form == Form(t.customerName, t.phone, t.address, t.productType, t.issue)
  {
  }

  /** The value of one modal input. */
  function FieldOf(f: Form, field: Field): string {
    match field
    case CustomerName => f.customerName
    case Phone => f.phone
    case Address => f.address
    case ProductType => f.productType
    case Issue => f.issue
  }

  /** Typing into a modal input: `setFormData({ ...formData, [field]: value })`.
      Both modals share this form, and the edit modal's inputs write it too
      (the modal ignores its `readOnly` flag). */
  function SetField(s: State, field: Field, value: string): (s': State)
    ensures FieldOf(s'.form, field) == value
    ensures forall g :: g != field ==> FieldOf(s'.form, g) == FieldOf(s.form, g)
    ensures s' == s.(form := s'.form)
  {
    var f := s.form;
    s.(form := match field
      case CustomerName => f.(customerName := value)
      case Phone => f.(phone := value)
      case Address => f.(address := value)
      case ProductType => f.(productType := value)
      case Issue => f.(issue := value))
  }

  /** "New Ticket" only opens the create modal; the form is not reset. */
  function OpenCreate(s: State): (s': State)
    ensures s'.showCreate && s'.form == s.form && s'.tickets == s.tickets
  {
    s.(showCreate := true)
  }

  /** Choosing a staff member in the assign modal. */
  function ChooseStaff(s: State, staffId: string): (s': State)
    ensures s'.selectedStaff == staffId && s' == s.(selectedStaff := staffId)
  {
    s.(selectedStaff := staffId)
  }

  /** The create modal's close button: hides it and keeps the draft. */
  function CloseCreate(s: State): (s': State)
    ensures !s'.showCreate
    ensures s'.tickets == s.tickets && s'.form == s.form && s'.showEdit == s.showEdit && s'.showAssign == s.showAssign
  {
    s.(showCreate := false)
  }

  /** The assign modal's Cancel: hides it but keeps the ticket and the staff
      selection. */
  function CancelAssign(s: State): (s': State)
    ensures !s'.showAssign
    ensures s'.assigning == s.assigning && s'.selectedStaff == s.selectedStaff
    ensures s'.tickets == s.tickets && s'.form == s.form
  {
    s.(showAssign := false)
  }

  /** Closing the create modal and opening it again shows the same draft, and
      submitting it sends that draft. */
  lemma CloseCreateKeepsDraft(s: State, reply: Outcome<()>)
    ensures OpenCreate(CloseCreate(s)).form == s.form
    ensures HandleCreate(OpenCreate(CloseCreate(s)), reply).calls[0] == CreateTicket(s.form)
  {
  }

  /** A staff member chosen before Cancel stays selected: opening Assign on
      another ticket and pressing Assign at once sends the old choice for
      the new ticket. */
  lemma CancelledChoiceCarriesOver(s: State, staffId: string, t: Ticket, reply: Outcome<()>)
    requires staffId != ""
    ensures var s' := OpenAssign(CancelAssign(ChooseStaff(s, staffId)), t);
      HandleAssign(s', reply).calls[0] == AssignTicket(t.id, staffId)
  {
  }

  /** What a user types into the edit view is kept in the shared form after
      saving, and the next create sends it. */
  lemma EditedFormReachesCreate(s: State, t: Ticket, field: Field, value: string, reply: Outcome<()>)
    ensures var st := HandleCreate(OpenCreate(SaveEdit(SetField(OpenEdit(s, t), field, value))), reply);
      && st.calls[0].form == SetField(OpenEdit(s, t), field, value).form
      && FieldOf(st.calls[0].form, field) == value
  {
  }

  /** A failed create keeps the form, so a retry sends the same ticket. */
  lemma CreateRetrySendsSame(s: State, reply: Outcome<()>)
    ensures HandleCreate(HandleCreate(s, Failure).next, reply).calls[0] == HandleCreate(s, Failure).calls[0]
  {
  }

  /** Deleting the same ticket twice leaves what deleting it once left. */
  lemma DeleteTwiceIdempotent(s: State, id: string)
    ensures var once := HandleDelete(s, id, true, Success(())).next;
      HandleDelete(once, id, true, Success(())).next == once
  {
    Keyed.RemoveKeyIdempotent(s.tickets, KeyOf, id);
  }

  /** After a successful assignment the modal has no ticket and no staff
      member, so pressing Assign again sends nothing. */
  lemma AssignTwiceSendsOnce(s: State, reply: Outcome<()>)
    requires s.selectedStaff != "" && s.assigning.Some?
    ensures Inert(HandleAssign(HandleAssign(s, Success(())).next, reply), HandleAssign(s, Success(())).next)
  {
  }

  /** Every control of the page, plus `StatusChosen`: `handleStatusChange`
      is defined but no control calls it, so the event set is a superset of
      what the page can emit. The edit modal's close runs the same
      `setShowEdit(false)` as its save. */
  datatype Event =
    | FetchDone(fetched: Outcome<seq<Ticket>>)
    | CreateClicked
    | FieldTyped(field: Field, value: string)
    | CreateSubmitted(reply: Outcome<()>)
    | DeleteClicked(id: string, confirmed: bool, reply: Outcome<()>)
    | AssignClicked(ticket: Ticket)
    | StaffChosen(staffId: string)
    | AssignSubmitted(reply: Outcome<()>)
    | StatusChosen(ticketId: string, status: string, reply: Outcome<()>)
    | EditClicked(ticket: Ticket)
    | EditSaved
    | CreateClosed
    | EditClosed
    | AssignCancelled

  function Apply(s: State, e: Event): State {
    match e
    case FetchDone(r) => Load(s, r)
    case CreateClicked => OpenCreate(s)
    case FieldTyped(field, v) => SetField(s, field, v)
    case CreateSubmitted(r) => HandleCreate(s, r).next
    case DeleteClicked(id, c, r) => HandleDelete(s, id, c, r).next
    case AssignClicked(t) => OpenAssign(s, t)
    case StaffChosen(v) => ChooseStaff(s, v)
    case AssignSubmitted(r) => HandleAssign(s, r).next
    case StatusChosen(id, st, r) => HandleStatusChange(s, id, st, r).next
    case EditClicked(t) => OpenEdit(s, t)
    case EditSaved => SaveEdit(s)
    case CreateClosed => CloseCreate(s)
    case EditClosed => SaveEdit(s)
    case AssignCancelled => CancelAssign(s)
  }

  function Run(s: State, es: seq<Event>): State
    decreases |es|
  {
    if |es| == 0 then s else Run(Apply(s, es[0]), es[1..])
  }

  /** One event changes the cached list only when it is a reload or a
      confirmed, successful delete, and a delete only removes tickets. */
  lemma ApplyOnlyReloadOrDeleteChanges(s: State, e: Event)
    ensures !e.FetchDone? && !e.DeleteClicked? ==> Apply(s, e).tickets == s.tickets
    ensures !e.FetchDone? ==> forall t :: t in Apply(s, e).tickets ==> t in s.tickets
  {
  }

  /** Between two reloads the list only loses tickets, and it does not change
      at all unless a delete succeeds: creates, assignments and status
      changes wait for the next fetch to show. */
  lemma {:induction false} RunWithoutReloadOnlyShrinks(s: State, es: seq<Event>)
    requires forall i :: 0 <= i < |es| ==> !es[i].FetchDone?
    ensures forall t :: t in Run(s, es).tickets ==> t in s.tickets
    ensures (forall i :: 0 <= i < |es| ==> !es[i].DeleteClicked?) ==> Run(s, es).tickets == s.tickets
    decreases |es|
  {
    if |es| > 0 {
      ApplyOnlyReloadOrDeleteChanges(s, es[0]);
      RunWithoutReloadOnlyShrinks(Apply(s, es[0]), es[1..]);
    }
  }
}

=== FILE: wrappers.dfy ===
/** Small shared datatypes for the page models.

    Every page handler of the console is an event handler that may await one
    server call. The model passes the call's outcome in as an `Outcome`, and a
    handler returns a `Step`: the next view state together with the server
    calls it issued, in order.
 */
module Wrappers {

  /** A value that may be absent (JavaScript `null` / `undefined`). */
  datatype Option<+T> = None | Some(value: T) {

    /** The carried value, or `default` when absent. */
    function GetOr(default: T): T {
      match this
      case Some(v) => v
      case None => default
    }
  }

  /** What an awaited server call produced: the resolved value, or a rejection. */
  datatype Outcome<+T> = Success(value: T) | Failure

  /** The effect of one handler: the next state and the server calls it issued. */
  datatype Step<+S, +C> = Step(next: S, calls: seq<C>)

  /** No call was issued and the state did not move. */
  predicate Inert<S(==), C>(st: Step<S, C>, s: S) {
    st.next == s && st.calls == []
  }
}
